=== FILE: README.md ===
# EZrename in Dafny

A model of EZrename, a bulk renamer for the files and directories of one
directory. A run has four stages:

1. It selects entries by extension, directory-ness, or an `only`/`ignore` list.
2. It proposes a new name for each entry by applying a regex substitution.
3. It renames the pairs one after the other. A collision is resolved by
   appending a ` (n)` counter, and the counter is shared by the whole batch.
4. It records the batch's history so that a later `--undo` can replay it
   swapped.

The configuration that goes with this includes:

- named regex presets under a size limit;
- a default regex;
- restriction callbacks;
- the rename history.

Three generations of the program are covered:

- **The packaged tool:**
  - `EZrename/renamer.py`
  - `EZrename/__main__.py`, with its `rename` and `config` subcommands
  - `EZrename/confighandler.py`
  - `EZrename/utils/confighandler.py`
- **The single-file script `EZrename.py`**, with its JSON handler
  `json_config_handler.py`.
- **The older script `nyaanamer.py`.**

## Modelling choices

- **Directory.** A directory is `Fs = map<string, bool>`, from full path to
  is-directory.
- **`os.rename`.** `FileSystem.OsRename` has these outcomes:
  - a missing source fails with `NotFound`;
  - a distinct existing target fails with `Exists` (the `FileExistsError`
    the code catches);
  - renaming a path to itself is a no-op.
- **Python dicts.** A dict that keeps insertion order (the rename history) is
  an association list, `History.Dict`.
  - `History.Put` replaces a key's value in place, or appends a new key.
  - `History.Swap` swaps every pair, as undo does.
- **`re.sub`.** `re.sub(regex, replacewith, name)` is an uninterpreted function
  parameter.
- **Extensions.** `os.path.splitext` is modelled exactly in `Paths.SplitExt`.
  The extension starts at the last dot of the final component. Leading dots
  never start one.
- **The legacy tokeniser.** The scripts split extension arguments with the
  regex `\.?(\w+)`. This is modelled concretely in `LegacyFilter.Tokens`,
  with `\w` limited to ASCII.
- **Directory listing.** The listing (`os.scandir` / `os.listdir`) is an input
  snapshot, `seq<Entry>`.
- **Ending the program.** `sys.exit`, `parser.error` and the callbacks that
  exit become outcomes of the functions:
  - `Refused`, `Exited` and `ParserError` in `Cli`;
  - `Exited` and `LimitExit` in `LegacyCli`.
- **An aborted batch.** An exception that escapes the rename loop ends the
  batch. Every earlier rename stays applied and no history is stored
  (`Failed`, `Aborted`, `RenameFailed`).

## Modules

- `wrappers.dfy`: `Option` and `Result`.
- `paths.dfy`: `os.path.join`, `splitext`, and decimal rendering of the counter.
- `filesystem.dfy`: the directory, `os.rename`, and sequences of moves.
- `history.dfy`: the ordered history dict.
- `filter.dfy`: the predicate builder of `__main__.py` and `filter_files`.
- `transform.dfy`: `renamed_names`.
- `executor.dfy`: the rename fold. It covers one step, the batch, the counter
  and the history.
- `undo.dfy`: the undo round trip, and the counterexample showing why it needs
  its side condition.
- `config.dfy`: `ConfigHandler` of `EZrename/confighandler.py`.
- `utils_config.dfy`: `ConfigHandler` of `EZrename/utils/confighandler.py`.
- `json_config.dfy`: `JsonConfigHandler`.
- `legacy_filter.dfy`: `only_ignore_handler` and `renamed_name` of the scripts.
- `cli.dfy`: the `rename` and `config` subcommands.
- `legacy_cli.dfy`: the `__main__` blocks of `EZrename.py` and `nyaanamer.py`.
- `scenario.dfy`: a worked batch over the directory used by the repository's
  tests.

## Where the tests and the code disagree

`tests/test_renamer.py` imports functions that the code no longer has
(`get_files`, `renamed_files`, `get_predicates`). Its expectations differ from
the code in three places:

- **The collision suffix.** The tests expect `hello (3).mkv`. The code appends
  the counter to the whole target path and gives `hello.mkv (3)`.
- **The history direction.** The tests expect a final-to-original history. The
  code records original to final.
- **`--directory` with `--ignore []`.** The tests expect files only. In the
  code an empty `ignore` is falsy, so only directories are kept.

The model follows the code in all three. `Scenario.DigitsRemoved` shows the
batch the code actually performs on the tests' directory.

## Model

| member | source | states |
|---|---|---|
| Paths.SplitExt | EZrename/__main__.py:43 | the root and extension concatenate back to the name; a non-empty extension is one dot followed by text with no dot or separator |
| Paths.GetExtOfSplit | EZrename/__main__.py:43 | `root.ext` has extension `ext` whenever `ext` has no dot or slash and the last component of `root` has a non-dot character |
| Paths.GetExtShape | EZrename/__main__.py:43 | conversely, every non-empty extension comes from such a `root.ext` split |
| Paths.LeadingDotsNoExt | EZrename/__main__.py:43 | a final component made only of dots up to its last dot (`.bashrc`) has no extension |
| Paths.NoDotNoExt | EZrename/__main__.py:43 | a name without a dot has the empty extension |
| Paths.NatToStringRoundTrip | EZrename/renamer.py:66 | the decimal rendering of the collision counter reads back as the same number |
| Paths.NatToStringInjective | EZrename/renamer.py:66 | distinct counter values render differently, so the suffixes of one batch are distinct |
| Paths.JoinInjective | EZrename/renamer.py:54-55 | joining one directory with two different relative names gives two different paths |
| FileSystem.OsRename | EZrename/renamer.py:63-67 | `os.rename` fails with NotFound exactly when the source is missing, and fails with Exists exactly when a different target exists; it succeeds otherwise, moving the one entry, and a same-path rename changes nothing |
| FileSystem.MoveEntry | EZrename/renamer.py:64 | the moved entry keeps its kind under its new path; every other path keeps its presence and kind |
| FileSystem.RenameKeepsCount | EZrename/renamer.py:63-67 | a successful rename neither adds nor removes entries |
| FileSystem.MoveAllFrame | EZrename/renamer.py:61-73 | paths that no move of a batch mentions are unchanged by the batch |
| History.Put | EZrename/renamer.py:72 | `history[original] = renamed`: the key maps to the value, other keys keep theirs, a new key is appended, and keys stay unique |
| History.SwapSwap | EZrename/renamer.py:62 | swapping the pairs twice gives back the history |
| Executor.CollisionName | EZrename/renamer.py:66 | the retry target extends the whole proposed path, extension included, and differs from it |
| Executor.CollisionNameInjective | EZrename/renamer.py:66 | two retry targets of one proposed path are equal only for equal counter values, so the suffixes of one batch are distinct |
| Executor.RenameOne | EZrename/renamer.py:62-72 | one pair: it fails (filesystem unchanged) exactly when the source is missing or both the target and the counter-suffixed target are taken; otherwise the entry moves to a free target (or stays, for a same-path pair), the counter advances only on a collision, and history records original to final |
| Executor.RenameAll | EZrename/renamer.py:61-73 | the batch never changes the number of entries; entries that are the original of no pair are untouched; the counter never goes down and advances at most once per pair |
| Executor.FailedAt | EZrename/renamer.py:61-73 | an aborted batch stops at a first failing pair: the pairs before it complete, that pair fails, and the batch reports exactly the filesystem those earlier renames produced (they are kept, not rolled back) and that pair's error |
| Executor.Rename | EZrename/renamer.py:58-73 | the whole call, counter starting at 1, completed or aborted: the number of entries is unchanged, and entries that no (swapped) pair names as original are untouched; it fails exactly when the loop aborts, and then leaves the filesystem as the renames before the first failing pair made it, reporting that pair's error |
| Executor.RenameDone | EZrename/renamer.py:58-73 | a loop that completes is reported as done with the loop's own filesystem and history |
| Executor.Orient | EZrename/renamer.py:62 | undo swaps every pair before the loop; a forward run uses the pairs as given |
| Executor.BatchPrefix | EZrename/renamer.py:72-73 | a completed batch over fresh originals appends exactly one history item per pair and keeps what was there |
| Executor.BatchLog | EZrename/renamer.py:61-73 | a completed batch logs, in order, one item per pair keyed by its original; the filesystem is exactly the logged moves performed in order, each one onto a free path |
| Executor.BatchCounter | EZrename/renamer.py:60-68 | the counter rises by exactly the number of retargeted pairs: one shared counter serves the whole batch |
| Executor.BatchCounted | EZrename/renamer.py:60-68 | each logged item kept its proposed target or took the counter value current at its turn, the counter advancing only on a retarget |
| Executor.CountedAt | EZrename/renamer.py:60-68 | read position by position: item i kept its target or got ` (c + k)` appended, where k is the number of items before it that were retargeted |
| Undo.UndoRoundTrip | EZrename/renamer.py:58-73 | a completed forward batch over distinct originals is undone exactly by replaying its history with undo, when no final name of one pair is another pair's original; the new history is the swapped one |
| Undo.UndoLog | EZrename/renamer.py:61-73 | replaying a valid, chain-free history swapped from the filesystem it produced meets no collision and restores the start |
| Undo.ForwardLog | EZrename/renamer.py:61-73 | the history of a completed forward batch has distinct keys and describes valid moves that produce the final filesystem |
| Undo.FinalsDistinct | EZrename/renamer.py:63-67 | since no rename overwrites, the final names of a chain-free batch are pairwise distinct |
| Undo.ChainedBatchNotRestored | EZrename/renamer.py:58-73 | the side condition is needed: renaming `b` to `c` and then `a` to `b` completes, but its undo leaves `b (1)` and `a` instead of `a` and `b` |
| Scenario.DigitsRemoved | tests/test_renamer.py:69-84 | the tests' directory with digits removed becomes `dir`, `dir (1)`, `dir (2)`, `hello.mkv`, `hello.mkv (3)` and `hello.mp`; the same-path pair uses no counter value |
| Scenario.ProposedBy | tests/test_renamer.py:69-71 | under any substitution that strips the digits of the test's names, the transformer proposes exactly the batch of that test, in scan order |
| Scenario.ScanDigitsRemoved | tests/test_renamer.py:69-84 | from scan to result: the test's listing, transformed under digit removal and renamed, ends as `dir`, `dir (1)`, `dir (2)`, `hello.mkv`, `hello.mkv (3)` and `hello.mp` |
| EntryFilter.Predicates | EZrename/__main__.py:45-59 | the accepted entries for each flag combination: with `--directory`, `only` admits directories or listed extensions, `ignore` rejects directories and listed extensions, and neither admits directories only; without it, `ignore` and `only` are combined by AND; no flag at all gives no predicate |
| EntryFilter.SelectedByFlags | EZrename/__main__.py:45-59 | an entry of the scan is kept by `filter_files` exactly as that case table says, empty lists counting as absent |
| EntryFilter.FilterFiles | EZrename/renamer.py:44-49 | the loop yields, in scan order, the names of exactly the entries every predicate accepts |
| EntryFilter.KeptMembership | EZrename/renamer.py:44-49 | an entry is kept exactly when it is in the scan and passes every effective predicate |
| EntryFilter.KeepAll | EZrename/renamer.py:45 | with no predicates (None or an empty list) every entry is kept, in order |
| EntryFilter.KeptAppend | EZrename/renamer.py:46-49 | filtering distributes over concatenation of scans, so order is preserved |
| EntryFilter.KeptIdempotent | EZrename/renamer.py:44-49 | filtering an already filtered scan changes nothing |
| EntryFilter.KeptDistinct | EZrename/renamer.py:46-49 | filtering a scan with distinct names yields distinct names |
| Transform.RenamedNames | EZrename/renamer.py:51-56 | one pair per name, in order, the i-th being the joined original and the joined substitution of that name |
| Transform.RenamedNamesAppend | EZrename/renamer.py:51-56 | the transformer distributes over concatenation of its input |
| Transform.IdentityProposesOriginals | EZrename/renamer.py:51-56 | a substitution that changes nothing proposes same-path pairs only |
| Transform.DistinctOriginals | EZrename/renamer.py:54-55 | distinct relative names give pairs with distinct originals |
| PresetConfig.IsRestricted | EZrename/confighandler.py:58-63 | never restricted without a limit; with one, restricted exactly when the count plus the addition exceeds it; a missing or falsy (0) element stands for the preset count, and any other element value is itself compared with the limit |
| PresetConfig.OnRestriction | EZrename/confighandler.py:65-67 | the callback is appended after the earlier ones, which are kept |
| PresetConfig.PresUpdate | EZrename/confighandler.py:69-77 | the update is applied exactly when unlimited or within the limit counting `len(new)`, with new keys added, existing ones overwritten and others untouched; otherwise presets are unchanged, and every callback runs or, with none registered, ValueError is raised |
| PresetConfig.PresUpdateKeepsBound | EZrename/confighandler.py:69-77 | a preset count within the limit stays within it |
| PresetConfig.ResetAtLimitRefused | EZrename/confighandler.py:71 | at the limit, re-setting an existing preset is refused although it would not grow the store |
| PresetConfig.CallbacksInRegistrationOrder | EZrename/confighandler.py:72-74 | on refusal the callbacks run in the order they were registered |
| PresetConfig.UpdateSize | EZrename/confighandler.py:77 | `dict.update` grows the dict by at most `len(new)`, and not at all when it only overwrites |
| UtilsConfig.UpdatePreset | EZrename/utils/confighandler.py:59-63 | refused, with presets unchanged, exactly when a truthy limit is exceeded by count plus `len(new)`; a limit of None or 0 never refuses; otherwise `new` is merged |
| UtilsConfig.UpdatePresetKeepsBound | EZrename/utils/confighandler.py:59-63 | a positive limit that holds before an update holds after it |
| UtilsConfig.SelectRegex | EZrename/utils/confighandler.py:81-97 | a truthy regex wins; otherwise a truthy preset name gives that preset or the no-preset error; otherwise a non-empty default, else the no-default error |
| UtilsConfig.EmptyRegexFallsThrough | EZrename/utils/confighandler.py:83-90 | an empty explicit regex selects exactly as no regex |
| UtilsConfig.SelectedFromASource | EZrename/utils/confighandler.py:81-97 | a selected regex is the explicit one, a preset or the default, and selection fails exactly when no source applies |
| UtilsConfig.GetRegex | EZrename/utils/confighandler.py:71-97 | an explicit truthy regex is returned as is; errors are only the missing preset or missing default |
| UtilsConfig.GetHistory | EZrename/utils/confighandler.py:99-106 | the recorded history of the path, or an error naming the path exactly when there is none |
| JsonConfig.IsRestrictedByLength | json_config_handler.py:13-18 | restricted exactly when the element already holds `length` items or more; a missing element raises KeyError |
| JsonConfig.OnRestriction | json_config_handler.py:20-23 | the callback is appended after the earlier ones |
| JsonConfig.SetKey | json_config_handler.py:33-35 | `json_data[element][key] = val` sets that key of an object element and leaves every other key and element alone; a missing element or a non-object raises |
| JsonConfig.AppendToObjectElement | json_config_handler.py:25-35 | a truthy restriction without a `length` keyword raises KeyError before anything else; a restricted element runs every callback and leaves the data alone; otherwise the key is set |
| JsonConfig.ObjectAppendBounded | json_config_handler.py:13-33 | under restriction an object element never grows past `length` |
| JsonConfig.AppendToArrayElement | json_config_handler.py:37-47 | the data is never changed on any path; a truthy restriction without `length` raises KeyError; with `length`, an existing element already holding `length` items is blocked and every callback runs; in every other case it succeeds exactly when the element exists and supports `+` with the value, and otherwise raises KeyError for a missing element or TypeError |
| LegacyFilter.Tokens | EZrename.py:4 | `re.findall(r"\.?(\w+)", s)` yields only non-empty runs of word characters |
| LegacyFilter.TokensSplit | EZrename.py:14-23 | a non-word character separates tokens: the tokens around it are those of each side, concatenated |
| LegacyFilter.PlainExtTokens | EZrename.py:14-23 | plain word arguments tokenise to themselves, and become themselves with a dot in front |
| LegacyFilter.CompoundExtension | EZrename.py:14 | the argument `tar.gz` gives the two suffixes `.tar` and `.gz` |
| LegacyFilter.DottedExtension | EZrename.py:14 | an argument `.mkv` gives `.mkv`; the leading dot is not doubled |
| LegacyFilter.RemoveFirst | EZrename.py:16-25 | `list.remove` drops one occurrence of the value and keeps every other item |
| LegacyFilter.KeepEnding | EZrename.py:18-20 | keeps exactly the names ending with one of the suffixes, and no more names than it was given |
| LegacyFilter.KeepEndingAppend | EZrename.py:18-20 | the comprehension distributes over concatenation: matches keep their listing order and multiplicity |
| LegacyFilter.KeepEndingOne | EZrename.py:18-20 | one name is kept once when it ends with a suffix and dropped otherwise |
| LegacyFilter.DropEnding | EZrename.py:27-29 | keeps exactly the names ending with none of the suffixes and not excluded, and no more names than it was given |
| LegacyFilter.DropEndingAppend | EZrename.py:27-29 | the comprehension distributes over concatenation: survivors keep their listing order and multiplicity |
| LegacyFilter.DropEndingOne | EZrename.py:27-29 | one name survives once when it ends with no suffix and is not excluded, and is dropped otherwise |
| LegacyFilter.DirNamesAppend | EZrename.py:17-26 | the directory names of a listing distribute over concatenation, in listing order |
| LegacyFilter.OnlyIgnoreHandler | EZrename.py:7-31 | `only` keeps the suffix matches, plus all directories when `.directory` is among the tokens; otherwise `ignore` drops the suffix matches, and also all directories when `.directory` is among them; with neither, the listing is returned unchanged |
| LegacyFilter.HandlerOrder | EZrename.py:7-31 | the handler's output for two listings put together: every case except `only` with `.directory` is the two outputs concatenated; that case lists all suffix matches of both halves, in order, and then all directories of both, so a directory that also matches appears twice |
| LegacyFilter.OnlyBeatsIgnore | EZrename.py:12-22 | once `only` is non-empty, `ignore` is never consulted |
| LegacyFilter.DirectoryMatchListedTwice | EZrename.py:15-18 | with `only` holding `directory`, a directory whose name also ends with a listed extension is proposed twice |
| LegacyFilter.OnlyDirectory | nyaanamer.py:14-17 | `only` naming nothing but `directory` selects exactly the directories |
| LegacyFilter.RenamedName | nyaanamer.py:33-46 | for the i-th name the handler selects, in the handler's order, the pair of that name and its substitution, both joined to the directory; with neither `only` nor `ignore`, that is every listed entry in listing order |
| Cli.Source | EZrename/__main__.py:65-86 | undo takes the directory's stored history or refuses with no history; a forward run refuses exactly when regex selection fails and otherwise proposes, in scan order, for the i-th kept entry the pair of its name joined to the directory and the substitution under the selected regex (explicit, else preset, else default) joined to the directory |
| Cli.Renaming | EZrename/__main__.py:65-90 | refuses exactly when the source does; a completed batch replaces (does not merge) the history of its directory with the batch's history and leaves other directories, presets and the default alone; otherwise it aborts exactly when the renamer fails, with the renamer's filesystem and error; the entry count never changes |
| Cli.GetHistoryIsUndoSource | EZrename/utils/confighandler.py:99-106 | `get_history` is the lookup an undo run makes: it fails exactly when the undo source refuses, with the same error, and otherwise gives the pairs fed to the renamer |
| Cli.StoredHistoryReadBack | EZrename/__main__.py:87-89 | after a completed batch, `get_history` on its directory reads back exactly the history the renamer returned |
| Cli.RenameThenUndo | EZrename/__main__.py:65-90 | `rename` followed by `rename --undo` on the same directory restores it, when the scan's names are distinct and relative and the batch has no chain; the stored history becomes the swapped batch |
| Cli.DeletePresets | EZrename/__main__.py:155-164 | the names other than `default` are removed, and `default` clears the default pattern; unknown names are reported and the loop continues |
| Cli.DeleteKnown | EZrename/__main__.py:156-162 | deleting one existing preset removes exactly it, keeps the default and reports nothing |
| Cli.Configuring | EZrename/__main__.py:119-167 | the first truthy flag decides: `-dp PATTERN` sets the default; `-pa default` is a parser error; `-pa` otherwise adds under the limit of 5, keeping the default, or exits through the callback; `-pd` deletes; bare flags only print; no flag is a parser error; history is untouched |
| Cli.ConfiguringKeepsLimit | EZrename/__main__.py:124-146 | no `config` run takes the presets past 5 |
| Cli.ConfiguringAddOne | EZrename/__main__.py:137-146 | `-pa NAME PATTERN` with a name other than `default` and room under the limit adds exactly that preset and changes nothing else |
| Cli.ConfiguringDeleteOne | EZrename/__main__.py:155-164 | `-pd NAME` for one existing preset saves the configuration without that preset and reports nothing |
| Cli.AddThenDeleteRestores | EZrename/__main__.py:137-164 | adding a fresh preset and deleting it by name gives back the configuration |
| LegacyCli.Batch | EZrename.py:110-129 | the nested `rename`: a completed batch replaces the single `last_changes` with its history; an aborted one keeps the old value and exactly the filesystem the renames before the first failing pair produced |
| LegacyCli.Proposed | EZrename.py:132-146 | fails exactly when regex selection fails; otherwise, for the i-th name the handler keeps, the pair of that name and its substitution under the selected regex and replacement, both joined to the path |
| LegacyCli.EzRenamePhase | EZrename.py:132-151 | renames when path and replacement are both truthy, else (`elif`) undoes `last_changes`; selection errors exit before any rename; presets and default are untouched |
| LegacyCli.AppendPreset | json_config_handler.py:25-35 | adding to the `presets` element: KeyError without `length`; otherwise added exactly while below the limit, as `presets[name] = pattern` |
| LegacyCli.RegexAddAsWritten | EZrename.py:164 | the call as written raises KeyError for every input |
| LegacyCli.RegexAddNeverAdds | EZrename.py:164 | below the limit, the call as written fails while the intended one adds the preset |
| LegacyCli.RegexAdd | EZrename.py:160-165 | the intended call adds the preset exactly when fewer than 5 exist, and otherwise the restriction callback ends the program |
| LegacyCli.RegexAddKeepsLimit | EZrename.py:160-165 | the corrected add keeps the presets within 5 |
| LegacyCli.DeletePhase | EZrename.py:167-176 | `--regex-delete` removes the named presets, `default` clears the default, and `last_changes` is untouched |
| LegacyCli.EzConfigPhase | EZrename.py:153-181 | with the intended add: default, add and delete are independent `if`s applied in that order, and an add at the limit ends the run; otherwise the added name holds its pattern unless deleted again, every other remaining preset keeps its pattern, and the filesystem and `last_changes` are untouched |
| LegacyCli.EzConfigPhaseAsWritten | EZrename.py:153-181 | as written: every `--regex-add` crashes with KeyError after the default is set and before any delete; without one it is the phase above; the filesystem and `last_changes` are untouched |
| LegacyCli.AsWrittenAddStopsDeletes | EZrename.py:153-181 | with `--regex-add`, the written phase ends in KeyError with only the default applied, while the intended one below the limit finishes with the preset added and the deletes applied |
| LegacyCli.EzMain | EZrename.py:132-181 | with the intended add: an exit on regex selection changes nothing; a failed batch leaves the JSON state; a finished rename phase is followed by exactly the configuration phase on its result |
| LegacyCli.EzMainAsWritten | EZrename.py:132-181 | as written: without `--regex-add` the same run as above; with it, after a finished rename phase the run crashes with KeyError, holding the renamed filesystem and only the default applied |
| LegacyCli.UndoIgnoredWhenRenaming | EZrename.py:132-149 | with path and replacement given, `--undo` has no effect |
| LegacyCli.EzRenameThenUndo | EZrename.py:110-151 | a rename run followed by `EZrename.py -u` restores the directory under distinct originals and no chain; `last_changes` becomes the swapped batch |
| LegacyCli.NyaaRegex | nyaanamer.py:115-120 | the explicit truthy regex, else a non-empty `default_regex`, else the no-regex exit; presets are never consulted |
| LegacyCli.NyaaMain | nyaanamer.py:113-127 | rename and undo are separate `if`s: a regex error exits before any rename; a rename alone gives the renamer's filesystem and, when done, its history as `last_changes`; an undo alone replays `last_changes` swapped; with both, a completed rename is followed by the undo of its own history; a failed rename stops the run with the JSON state unchanged; neither flag leaves everything unchanged |
| LegacyCli.NyaaRenameAndUndo | nyaanamer.py:113-127 | with path, replacement and `--undo` all given, the batch runs and is immediately undone, so the filesystem is unchanged when its originals are distinct and it has no chain |

## Left out

- Printing, `--quiet`, argparse setup, the version and license output, and the
  `required=` computations over `sys.argv`. This includes `nyaanamer.py`'s
  `CONFIG_FLAGS` list, whose missing comma glues `--regex-default` to
  `--regex-add`. All of this is user interface and decides nothing the model
  covers.
- The path handlers (`EZrename/pathhandler.py`, `EZrename/utils/pathhandler.py`,
  `path_handler.py`). They re-prompt interactively until a directory is given.
  The model takes the validated path as given.
- Loading and dumping the JSON file. The configuration is in-memory maps, and
  every step the code dumps is reflected in the returned state.
- The regex engine. `re.sub` is an uninterpreted parameter. Only the `\w+`
  tokeniser of the scripts is modelled, with ASCII word characters.
- Lazy scanning. `filter_files` and `renamed_names` are generators that the
  rename loop pulls while it renames. The model scans once, before renaming
  starts, so an entry created by the batch is never rescanned.
- POSIX `os.rename`, which silently replaces an existing file. The model uses
  the failing semantics that the code's `FileExistsError` handler assumes.
  Permission errors and races between the check and the rename are not
  modelled either.
- The constructor call at EZrename.py:74, which passes an indent to a
  constructor that takes only a path and so raises TypeError at start-up. The
  script's flow is modelled as if the handler had been built.
- The restriction callbacks' keyword arguments. With the corrected `length=`
  keyword, the script's `restriction()` would be called with an unexpected
  keyword. Either way the program ends, which is modelled as `LimitExit`.
- A configuration file missing `regex_default`, which raises KeyError in
  Python. The model's configuration always has a default, possibly empty.
- The `errorer` of `EZrename/utils/confighandler.py` when it is not
  `sys.exit`. The code then falls through to an unbound local. The model
  treats the errorer as ending the call with an error.
- The configuration flags of `nyaanamer.py` other than `--undo`. They are
  parsed but never acted on.
- Cli.Configuring: the `-dp` (show) and `-pl` branches only print, so their
  outcome is the bare `Shown`, without the printed text.
- LegacyCli.EzConfigPhase, LegacyCli.EzMain: they use the intended `--regex-add`
  call of the Findings row. The script as written crashes on every `--regex-add`;
  that run is LegacyCli.EzConfigPhaseAsWritten and LegacyCli.EzMainAsWritten.
- FileSystem.OsRename: the filesystem is one flat map from paths to kinds, so
  a target is free whenever no entry has that path. `os.rename` also fails when
  the target's parent directory is missing (a substitution giving `sub/a`) or
  when the target is the directory itself (an empty substitution, giving
  `dir/`). Those OSErrors are not caught by the rename loop, so the batch would
  abort there; the model instead moves the entry and goes on.
- LegacyCli.EzRenameThenUndo, LegacyCli.NyaaRenameAndUndo: they assume the
  proposed originals are distinct. With `only` holding `directory`, a
  directory can be proposed twice (LegacyFilter.DirectoryMatchListedTwice).
  The second rename of that entry then fails or is a no-op.

## Findings

| source | as written | input that shows it | evidently intended | confidence | as-written member | corrected member |
|---|---|---|---|---|---|---|
| EZrename.py:164 | `append_to_object_element('presets', name, regex, PRESETS_LIMIT)` passes the limit as the truthy `length_restriction` flag and gives no `length` keyword, so `kwargs['length']` raises KeyError | `EZrename.py -ra foo bar` with any configuration | add the preset unless 5 already exist: `append_to_object_element('presets', name, regex, True, length=PRESETS_LIMIT)` | not executed | LegacyCli.RegexAddAsWritten | LegacyCli.RegexAdd |

=== FILE: cli.dfy ===
/** The two subcommands of the packaged tool (EZrename/__main__.py):
    `rename`, which selects entries, proposes names, renames and records the
    history for the directory (or undoes the recorded batch), and `config`,
    which manages the default pattern and the named presets. Argument
    parsing, printing and the JSON file are left to the caller: the model
    takes the parsed flags and the loaded configuration and returns the
    configuration that would be dumped. */
module Cli {
  import opened Wrappers
  import opened Paths
  import opened FileSystem
  import opened History
  import opened EntryFilter
  import opened Transform
  import opened Executor
  import opened Undo
  import opened PresetConfig
  import opened UtilsConfig

  /** The persisted configuration: `presets`, `regex_default` and
      `last_changes` (directory path -> rename history). */
  datatype Store = Store(presets: map<string, string>, regexDefault: string, history: map<string, Dict>)

  /** `re.sub(regex, replacewith, name)`, left uninterpreted. */
  type Substitution = (string, string, string) -> string

  /** The parsed flags of `rename`. */
  datatype RenameArgs = RenameArgs(
    path: string,
    replacewith: string,
    regex: Option<string>,
    presetRegex: Option<string>,
    filter: Options,
    undo: bool)

  datatype RenameRun =
    | Refused(reason: ConfigError)      // `parser.error` before anything is renamed
    | Aborted(fs: Fs, failure: OsError) // an OS error escaped the batch; nothing is dumped
    | Completed(fs: Fs, store: Store)   // the batch finished and its history was stored

  /** The pairs a `rename` run feeds to the renamer: the stored history of
      the directory when undoing, otherwise the transformed selection of
      the scan under the selected regex. */
  function Source(store: Store, listing: seq<Entry>, args: RenameArgs, resub: Substitution): (r: Result<seq<Pair>, ConfigError>)
    ensures args.undo ==> (r.Ok? <==> args.path in store.history)
    ensures args.undo && r.Ok? ==> r.value == store.history[args.path]
    ensures args.undo && r.Err? ==> r.error == NoHistory(args.path)
    ensures !args.undo ==> (r.Err? <==> SelectRegex(store.presets, store.regexDefault, args.regex, args.presetRegex).Err?)
    ensures !args.undo && r.Ok? ==> |r.value| == |Kept(listing, Some(Predicates(args.filter)))|
    ensures !args.undo && r.Ok? ==>
      var names := Names(Kept(listing, Some(Predicates(args.filter))));
      var regex := SelectRegex(store.presets, store.regexDefault, args.regex, args.presetRegex).value;
      forall i :: 0 <= i < |r.value| ==>
        r.value[i] == (Join(args.path, names[i]), Join(args.path, resub(regex, args.replacewith, names[i])))
  {
    if args.undo then
      if args.path in store.history then Ok(store.history[args.path]) else Err(NoHistory(args.path))
    else
      var regex :- SelectRegex(store.presets, store.regexDefault, args.regex, args.presetRegex);
      var names := Names(Kept(listing, Some(Predicates(args.filter))));
      Ok(RenamedNames(args.path, n => resub(regex, args.replacewith, n), names))
  }

  /** `renaming(parser, args)`: refuse when there is nothing to undo or no
      regex to use; otherwise run the batch and replace (not merge) the
      history stored for this directory with the batch's history. */
  function Renaming(fs: Fs, store: Store, listing: seq<Entry>, args: RenameArgs, resub: Substitution): (r: RenameRun)
    ensures r.Refused? <==> Source(store, listing, args, resub).Err?
    ensures r.Aborted? || r.Completed? ==> |r.fs| == |fs|
    ensures r.Aborted? || r.Completed? ==>
      && r.fs == Rename(fs, Source(store, listing, args, resub).value, args.undo).fs
      && (r.Aborted? <==> Rename(fs, Source(store, listing, args, resub).value, args.undo).Failed?)
    ensures r.Aborted? ==> r.failure == Rename(fs, Source(store, listing, args, resub).value, args.undo).error
    ensures r.Completed? ==>
      && r.store.presets == store.presets && r.store.regexDefault == store.regexDefault
      && args.path in r.store.history
      && Rename(fs, Source(store, listing, args, resub).value, args.undo).Done?
      && r.store.history[args.path] == Rename(fs, Source(store, listing, args, resub).value, args.undo).history
      && (forall p :: p != args.path ==> (p in r.store.history <==> p in store.history))
      && (forall p :: p != args.path && p in store.history ==> r.store.history[p] == store.history[p])
  {
    match Source(store, listing, args, resub)
    case Err(e) => Refused(e)
    case Ok(pairs) =>
      match Rename(fs, pairs, args.undo)
      case Done(fs', h) => Completed(fs', store.(history := store.history[args.path := h]))
      case Failed(fs', e) => Aborted(fs', e)
  }

  /** The configuration helper's `get_history` is the lookup an undo run
      makes: it fails exactly when `Source` refuses, with the same error,
      and otherwise yields the pairs `Source` feeds to the renamer. */
  lemma GetHistoryIsUndoSource(store: Store, limit: Option<int>, listing: seq<Entry>, args: RenameArgs, resub: Substitution)
    requires args.undo
    ensures var g := GetHistory(Config(limit, store.presets, store.regexDefault, store.history), args.path);
      && (g.Ok? <==> Source(store, listing, args, resub).Ok?)
      && (g.Ok? ==> g.value == Source(store, listing, args, resub).value)
      && (g.Err? ==> g.error == Source(store, listing, args, resub).error)
  {
  }

  /** After a completed batch, `get_history` on the directory reads back
      exactly the history the renamer returned for that batch. */
  lemma StoredHistoryReadBack(fs: Fs, store: Store, limit: Option<int>, listing: seq<Entry>, args: RenameArgs, resub: Substitution)
    requires Renaming(fs, store, listing, args, resub).Completed?
    ensures var st := Renaming(fs, store, listing, args, resub).store;
      GetHistory(Config(limit, st.presets, st.regexDefault, st.history), args.path)
        == Ok(Rename(fs, Source(store, listing, args, resub).value, args.undo).history)
  {
  }

  /** Running `rename` and then `rename --undo` on the same directory gives
      back the directory exactly, when the scan's names are distinct entry
      names and no final name of the batch was another pair's original. The
      stored history becomes the reversed batch. */
  lemma RenameThenUndo(fs: Fs, store: Store, listing: seq<Entry>, args: RenameArgs, resub: Substitution)
    requires !args.undo
    requires DistinctNames(listing)
    requires forall i :: 0 <= i < |listing| ==> !IsAbsolute(listing[i].name)
    requires Renaming(fs, store, listing, args, resub).Completed?
    requires NoChain(Renaming(fs, store, listing, args, resub).store.history[args.path])
    ensures var first := Renaming(fs, store, listing, args, resub);
      var h := first.store.history[args.path];
      Renaming(first.fs, first.store, listing, args.(undo := true), resub)
        == Completed(fs, first.store.(history := first.store.history[args.path := Swap(h)]))
  {
    var first := Renaming(fs, store, listing, args, resub);
    var pairs := Source(store, listing, args, resub).value;
    var kept := Kept(listing, Some(Predicates(args.filter)));
    var names := Names(kept);
    var regex := SelectRegex(store.presets, store.regexDefault, args.regex, args.presetRegex).value;
    assert pairs == RenamedNames(args.path, n => resub(regex, args.replacewith, n), names);
    KeptDistinct(listing, Some(Predicates(args.filter)));
    KeptMembership(listing, Some(Predicates(args.filter)));
    forall i | 0 <= i < |names|
      ensures !IsAbsolute(names[i])
    {
      assert kept[i] in listing;
    }
    DistinctOriginals(args.path, n => resub(regex, args.replacewith, n), names);
    UndoRoundTrip(fs, pairs);
  }

  /** The preset limit the tool constructs its handler with. */
  const PresetLimit := 5

  /** The callback `configuring` registers; it exits the program. */
  const RestrictCallback := "restrict"

  const RestrictMessage := "Cannot have more than 5 presets. Remove presets with -pd/--preset-delete <name>."
  const DefaultNameMessage := "Preset name can't be 'default'"

  /** `--default-preset` given with a pattern, or alone (show the default). */
  datatype DefaultArg = ShowDefault | SetDefault(pattern: string)

  /** The parsed flags of `config`. */
  datatype ConfigArgs = ConfigArgs(
    defaultPreset: Option<DefaultArg>,
    presetAdd: Option<(string, string)>,
    presetList: bool,
    presetDelete: Option<seq<string>>)

  datatype ConfigRun =
    | Saved(store: Store, unknown: seq<string>) // dumped; `unknown` names were reported as not presets
    | Shown                                     // the default or the presets were printed
    | Exited(message: string)                   // the restriction callback ended the program
    | ParserError(message: string)

  /** Python truthiness of `args.default_preset` (`True` or a pattern). */
  predicate DefaultGiven(d: Option<DefaultArg>) {
    d.Some? && (d.value.ShowDefault? || d.value.pattern != "")
  }

  /** The deletion loop of `--preset-delete`: `default` clears the default
      pattern, a preset name removes that preset, and any other name is
      reported and skipped while the loop goes on. */
  function DeletePresets(presets: map<string, string>, default: string, names: seq<string>): (r: (map<string, string>, string, seq<string>))
    ensures r.0.Keys == presets.Keys - (set n | n in names && n != "default")
    ensures forall k :: k in r.0 ==> r.0[k] == presets[k]
    ensures r.1 == if "default" in names then "" else default
    ensures forall n :: n in r.2 ==> n in names && n != "default" && n !in r.0
    ensures forall n :: n in names && n != "default" && n !in presets ==> n in r.2
    decreases |names|
  {
    if |names| == 0 then (presets, default, [])
    else
      var n := names[0];
      var rest := DeletePresets(
        if n == "default" || n !in presets then presets else presets - {n},
        if n == "default" then "" else default,
        names[1..]);
      assert forall m :: m in names <==> m == n || m in names[1..];
      assert (set m | m in names && m != "default")
          == (if n != "default" then {n} else {}) + (set m | m in names[1..] && m != "default");
      (rest.0, rest.1, (if n != "default" && n !in presets then [n] else []) + rest.2)
  }

  /** `--preset-delete` is the branch that runs: no earlier flag is truthy. */
  predicate DeleteRequested(args: ConfigArgs) {
    && !DefaultGiven(args.defaultPreset) && args.presetAdd.None? && !args.presetList
    && args.presetDelete.Some? && |args.presetDelete.value| > 0
  }

  /** Deleting one existing preset removes exactly it and reports nothing. */
  lemma DeleteKnown(presets: map<string, string>, default: string, name: string)
    requires name != "default" && name in presets
    ensures DeletePresets(presets, default, [name]) == (presets - {name}, default, [])
  {
    assert [name][1..] == [];
    var rest := DeletePresets(presets - {name}, default, []);
    assert rest == (presets - {name}, default, []);
    assert DeletePresets(presets, default, [name]) == (rest.0, rest.1, [] + rest.2);
    assert [] + rest.2 == [];
  }

  /** The `--preset-add` branch for a name other than `default`:
      `presupdate` on the handler the tool builds (limit 5, the `restrict`
      callback registered first), which counts `len(new)` against the limit
      and either saves the merged presets or runs the callback. */
  function AddBranch(store: Store, name: string, pattern: string): (r: ConfigRun)
    ensures |store.presets| + 1 <= PresetLimit ==> r == Saved(store.(presets := store.presets[name := pattern]), [])
    ensures |store.presets| + 1 > PresetLimit ==> r == Exited(RestrictMessage)
  {
    var handler := OnRestriction(Handler(Some(PresetLimit), [], store.presets), RestrictCallback);
    match PresUpdate(handler, map[name := pattern])
    case Updated(h') =>
      assert h'.presets == store.presets[name := pattern];
      Saved(store.(presets := h'.presets), [])
    case CallbacksRan(_, _) => Exited(RestrictMessage)
    case LimitError(_) => Exited(RestrictMessage)
  }

  /** `configuring(parser, args)` with the handler the tool builds (limit 5,
      the `restrict` callback registered first). The branches are tried in
      order and only the first truthy one runs. */
  function Configuring(store: Store, args: ConfigArgs): (r: ConfigRun)
    ensures DefaultGiven(args.defaultPreset) && args.defaultPreset.value.SetDefault? ==>
      r == Saved(store.(regexDefault := args.defaultPreset.value.pattern), [])
    ensures !DefaultGiven(args.defaultPreset) && args.presetAdd.Some? && args.presetAdd.value.0 == "default" ==>
      r == ParserError(DefaultNameMessage)
    ensures !DefaultGiven(args.defaultPreset) && args.presetAdd.Some? && args.presetAdd.value.0 != "default" ==>
      if |store.presets| + 1 <= PresetLimit
      then r.Saved? && r.store.presets == store.presets[args.presetAdd.value.0 := args.presetAdd.value.1]
           && r.store.regexDefault == store.regexDefault && r.unknown == []
      else r == Exited(RestrictMessage)
    ensures DeleteRequested(args) ==>
      && r.Saved?
      && r.store.presets.Keys == store.presets.Keys - (set n | n in args.presetDelete.value && n != "default")
      && (forall k :: k in r.store.presets ==> r.store.presets[k] == store.presets[k])
      && r.store.regexDefault == (if "default" in args.presetDelete.value then "" else store.regexDefault)
    ensures r.Shown? <==>
      || (DefaultGiven(args.defaultPreset) && args.defaultPreset.value.ShowDefault?)
      || (!DefaultGiven(args.defaultPreset) && args.presetAdd.None? && args.presetList)
    ensures r.Saved? ==> r.store.history == store.history
    ensures args == ConfigArgs(None, None, false, None) ==> r.ParserError?
  {
    if DefaultGiven(args.defaultPreset) then
      match args.defaultPreset.value
      case SetDefault(p) => Saved(store.(regexDefault := p), [])
      case ShowDefault => Shown
    else if args.presetAdd.Some? then
      var (name, pattern) := args.presetAdd.value;
      if name == "default" then ParserError(DefaultNameMessage)
      else
        AddBranch(store, name, pattern)
    else if args.presetList then Shown
    else if DeleteRequested(args) then
      var (presets, default, unknown) := DeletePresets(store.presets, store.regexDefault, args.presetDelete.value);
      Saved(Store(presets, default, store.history), unknown)
    else ParserError("test")
  }

  /** No `config` run takes the presets past the tool's limit. */
  lemma ConfiguringKeepsLimit(store: Store, args: ConfigArgs)
    requires |store.presets| <= PresetLimit
    ensures Configuring(store, args).Saved? ==> |Configuring(store, args).store.presets| <= PresetLimit
  {
    var r := Configuring(store, args);
    var handler := OnRestriction(Handler(Some(PresetLimit), [], store.presets), RestrictCallback);
    if r.Saved? && !DefaultGiven(args.defaultPreset) && args.presetAdd.Some? {
      PresUpdateKeepsBound(handler, map[args.presetAdd.value.0 := args.presetAdd.value.1]);
    } else if r.Saved? && !DefaultGiven(args.defaultPreset) && !args.presetList && args.presetDelete.Some? {
      var d := DeletePresets(store.presets, store.regexDefault, args.presetDelete.value);
      assert d.0.Keys <= store.presets.Keys;
      assert |d.0.Keys| <= |store.presets.Keys|;
    }
  }

  /** Adding a preset under a fresh name and then deleting it by name
      gives back the configuration that was there before. */
  lemma AddThenDeleteRestores(store: Store, name: string, pattern: string)
    requires name != "default" && name !in store.presets
    requires |store.presets| + 1 <= PresetLimit
    ensures var added := Configuring(store, ConfigArgs(None, Some((name, pattern)), false, None));
      && added.Saved?
      && Configuring(added.store, ConfigArgs(None, None, false, Some([name]))) == Saved(store, [])
  {
    ConfiguringAddOne(store, name, pattern);
    ConfiguringDeleteOne(store.(presets := store.presets[name := pattern]), name);
    assert store.presets[name := pattern] - {name} == store.presets;
  }

  /** `config --preset-add NAME PATTERN` below the limit. */
  lemma ConfiguringAddOne(store: Store, name: string, pattern: string)
    requires name != "default" && |store.presets| + 1 <= PresetLimit
    ensures Configuring(store, ConfigArgs(None, Some((name, pattern)), false, None))
         == Saved(store.(presets := store.presets[name := pattern]), [])
  {
    var r := Configuring(store, ConfigArgs(None, Some((name, pattern)), false, None));
    assert r.Saved? && r.unknown == [];
    assert r.store == store.(presets := store.presets[name := pattern]);
  }

  /** `config --preset-delete NAME` for one existing preset. */
  lemma ConfiguringDeleteOne(store: Store, name: string)
    requires name != "default" && name in store.presets
    ensures Configuring(store, ConfigArgs(None, None, false, Some([name])))
         == Saved(store.(presets := store.presets - {name}), [])
  {
    var args := ConfigArgs(None, None, false, Some([name]));
    assert DeleteRequested(args);
    DeleteKnown(store.presets, store.regexDefault, name);
  }
}

=== FILE: config.dfy ===
/** The preset store of the packaged tool (`ConfigHandler` in
    EZrename/confighandler.py): a dict of named regex presets whose size an
    optional limit restricts, and callbacks that replace the `ValueError`
    when an update is refused. */
module PresetConfig {
  import opened Wrappers

  /** `dict.update(new)`: keys of `new` are added or overwritten, every
      other key keeps its value. */
  function Update(m: map<string, string>, added: map<string, string>): (r: map<string, string>)
    ensures r.Keys == m.Keys + added.Keys
    ensures forall k :: k in added ==> r[k] == added[k]
    ensures forall k :: k in m && k !in added ==> r[k] == m[k]
  {
    m + added
  }

  /** An update grows the dict by at most the size of `new`, and not at all
      when it only overwrites. */
  lemma UpdateSize(m: map<string, string>, added: map<string, string>)
    ensures |Update(m, added)| <= |m| + |added|
    ensures added.Keys <= m.Keys ==> |Update(m, added)| == |m|
  {
    var r := Update(m, added);
    assert r.Keys == m.Keys + added.Keys;
    assert |r.Keys| == |r|;
    if added.Keys <= m.Keys {
      assert r.Keys == m.Keys;
    }
  }

  /** A restriction callback, known by the name it was registered under;
      the model records that it ran rather than running it. */
  type Callback = string

  /** The handler's state: `limit`, `_callbacks` and `presets`. */
  datatype Handler = Handler(limit: Option<int>, callbacks: seq<Callback>, presets: map<string, string>)

  /** `_is_restricted(element, willadd)`: never restricted without a limit;
      a falsy `element` (None or 0) stands for the current preset count. */
  function IsRestricted(h: Handler, element: Option<int>, willadd: int): (r: bool)
    ensures h.limit.None? ==> !r
    ensures h.limit.Some? && (element.None? || element == Some(0) || element == Some(|h.presets|)) ==>
      (r <==> |h.presets| + willadd > h.limit.value)
    ensures h.limit.Some? && element.Some? && element.value != 0 ==>
      (r <==> element.value + willadd > h.limit.value)
  {
    if h.limit.None? then false
    else
      var n := if element.None? || element.value == 0 then |h.presets| else element.value;
      n + willadd > h.limit.value
  }

  /** `on_restriction(callback)`: callbacks are kept in registration order. */
  function OnRestriction(h: Handler, cb: Callback): (r: Handler)
    ensures |r.callbacks| == |h.callbacks| + 1
    ensures r.callbacks[..|h.callbacks|] == h.callbacks && r.callbacks[|h.callbacks|] == cb
    ensures r.limit == h.limit && r.presets == h.presets
  {
    h.(callbacks := h.callbacks + [cb])
  }

  datatype PresOutcome =
    | Updated(handler: Handler)                       // presets merged
    | CallbacksRan(handler: Handler, ran: seq<Callback>) // refused, callbacks called
    | LimitError(limit: int)                          // refused, ValueError raised

  /** `presupdate(new)`: refused when the current count plus `len(new)`
      exceeds the limit, whether or not the keys of `new` already exist. A
      refusal runs every callback, in order, or raises `ValueError` when
      there is none; presets are unchanged either way. */
  function PresUpdate(h: Handler, added: map<string, string>): (r: PresOutcome)
    ensures r.Updated? <==> h.limit.None? || |h.presets| + |added| <= h.limit.value
    ensures r.Updated? ==>
      && r.handler.limit == h.limit && r.handler.callbacks == h.callbacks
      && r.handler.presets.Keys == h.presets.Keys + added.Keys
      && (forall k :: k in added ==> r.handler.presets[k] == added[k])
      && (forall k :: k in h.presets && k !in added ==> r.handler.presets[k] == h.presets[k])
    ensures r.CallbacksRan? <==> !r.Updated? && |h.callbacks| > 0
    ensures r.CallbacksRan? ==> r.handler == h && r.ran == h.callbacks
    ensures r.LimitError? ==> h.limit == Some(r.limit) && h.callbacks == []
  {
    if IsRestricted(h, Some(|h.presets|), |added|) then
      if |h.callbacks| > 0 then CallbacksRan(h, h.callbacks)
      else LimitError(h.limit.value)
    else Updated(h.(presets := Update(h.presets, added)))
  }

  /** The handler's presets after `presupdate`, whichever way it went. */
  function PresetsAfter(h: Handler, r: PresOutcome): map<string, string> {
    if r.Updated? || r.CallbacksRan? then r.handler.presets else h.presets
  }

  /** A store within its limit stays within it: the limit is an invariant
      of `presupdate`. */
  lemma PresUpdateKeepsBound(h: Handler, added: map<string, string>)
    requires h.limit.Some? && |h.presets| <= h.limit.value
    ensures |PresetsAfter(h, PresUpdate(h, added))| <= h.limit.value
  {
    var r := PresUpdate(h, added);
    if r.Updated? {
      UpdateSize(h.presets, added);
    }
  }

  /** At the limit, even re-setting an existing preset is refused, although
      the update would not have grown the store: `len(new)` is counted
      regardless of overlap. */
  lemma ResetAtLimitRefused(h: Handler, k: string, v: string)
    requires h.limit == Some(|h.presets|) && k in h.presets
    ensures !PresUpdate(h, map[k := v]).Updated?
    ensures |Update(h.presets, map[k := v])| == |h.presets|
  {
    UpdateSize(h.presets, map[k := v]);
  }

  /** Callbacks registered one after the other all run on refusal, in the
      order they were registered. */
  lemma CallbacksInRegistrationOrder(h: Handler, a: Callback, b: Callback, added: map<string, string>)
    requires h.limit.Some? && |h.presets| + |added| > h.limit.value
    ensures PresUpdate(OnRestriction(OnRestriction(h, a), b), added)
         == CallbacksRan(OnRestriction(OnRestriction(h, a), b), h.callbacks + [a, b])
  {
    var h2 := OnRestriction(OnRestriction(h, a), b);
    assert h2.callbacks == h.callbacks + [a] + [b];
    assert h.callbacks + [a] + [b] == h.callbacks + [a, b];
  }
}

=== FILE: executor.dfy ===
/** The rename executor (`EzRenamer.rename`, and the nested `rename` of the
    two single-file scripts, which has the same loop): a fold over
    (original, renamed) path pairs that threads the filesystem, one
    collision counter shared by the whole batch, and the history dict. */
module Executor {
  import opened Wrappers
  import opened Paths
  import opened FileSystem
  import opened History

  /** (original path, proposed path), as the name transformer yields them. */
  type Pair = (string, string)

  /** The retry target after a collision, `f"{renamed} ({n})"`: the counter is
      appended to the whole target path, after any extension. */
  function CollisionName(target: string, n: nat): (r: string)
    ensures |r| > |target| && r[..|target|] == target && r != target
  {
    target + " (" + NatToString(n) + ")"
  }

  /** Collision names of one target differ for different counter values,
      so the suffixes handed out by one batch are distinct. */
  lemma CollisionNameInjective(target: string, m: nat, n: nat)
    requires CollisionName(target, m) == CollisionName(target, n)
    ensures m == n
  {
    var a, b := CollisionName(target, m), CollisionName(target, n);
    assert a[|target| + 2 .. |a| - 1] == NatToString(m);
    assert b[|target| + 2 .. |b| - 1] == NatToString(n);
    NatToStringInjective(m, n);
  }

  /** The batch state threaded from one pair to the next. */
  datatype State = State(fs: Fs, counter: nat, history: Dict)

  /** One loop iteration either hands the state on or propagates an OS error
      out of the whole batch, leaving the renames already done in place. */
  datatype Step = Continue(state: State) | Abort(fs: Fs, error: OsError)

  /** Renaming `src` to `dst` raises FileExistsError. */
  predicate Collides(fs: Fs, src: string, dst: string) {
    src in fs && src != dst && dst in fs
  }

  /** Where a pair ends up when its step succeeds. */
  function FinalTarget(fs: Fs, counter: nat, p: Pair): string {
    if Collides(fs, p.0, p.1) then CollisionName(p.1, counter) else p.1
  }

  /** One pair: try the rename; on FileExistsError retry once with the
      counter appended and advance the counter; record original -> final. */
  function RenameOne(st: State, p: Pair): (r: Step)
    ensures r.Abort? <==> p.0 !in st.fs || (Collides(st.fs, p.0, p.1) && Collides(st.fs, p.0, CollisionName(p.1, st.counter)))
    ensures r.Abort? ==> r.fs == st.fs
    ensures r.Abort? ==> r.error == if p.0 !in st.fs then NotFound(p.0) else Exists(CollisionName(p.1, st.counter))
    ensures r.Continue? ==>
      var t := FinalTarget(st.fs, st.counter, p);
      && p.0 in st.fs
      && (t == p.0 || t !in st.fs)
      && r.state.fs == MoveEntry(st.fs, p.0, t)
      && r.state.counter == st.counter + (if Collides(st.fs, p.0, p.1) then 1 else 0)
      && r.state.history == Put(st.history, p.0, t)
  {
    match OsRename(st.fs, p.0, p.1)
    case Ok(fs') => Continue(State(fs', st.counter, Put(st.history, p.0, p.1)))
    case Err(NotFound(x)) => Abort(st.fs, NotFound(x))
    case Err(Exists(_)) =>
      var t := CollisionName(p.1, st.counter);
      match OsRename(st.fs, p.0, t)
      case Ok(fs') => Continue(State(fs', st.counter + 1, Put(st.history, p.0, t)))
      case Err(e) => Abort(st.fs, e)
  }

  /** The filesystem after a step, whichever way it went. */
  function StepFs(r: Step): Fs {
    if r.Continue? then r.state.fs else r.fs
  }

  /** `x` is the original of no pair. */
  predicate NotASource(x: string, pairs: seq<Pair>) {
    forall i :: 0 <= i < |pairs| ==> pairs[i].0 != x
  }

  /** The loop over all pairs, in order, stopping at the first error. */
  function RenameAll(st: State, pairs: seq<Pair>): (r: Step)
    ensures |StepFs(r)| == |st.fs|
    ensures forall x :: x in st.fs && NotASource(x, pairs) ==> x in StepFs(r) && StepFs(r)[x] == st.fs[x]
    ensures r.Continue? ==> st.counter <= r.state.counter <= st.counter + |pairs|
    decreases |pairs|
  {
    if |pairs| == 0 then Continue(st)
    else
      var p := pairs[0];
      match RenameOne(st, p)
      case Abort(fs, e) => Abort(fs, e)
      case Continue(st') =>
        var t := FinalTarget(st.fs, st.counter, p);
        assert OsRename(st.fs, p.0, t).Ok?;
        RenameKeepsCount(st.fs, p.0, t);
        assert forall x :: NotASource(x, pairs) ==> NotASource(x, pairs[1..]) by {
          forall x, i | NotASource(x, pairs) && 0 <= i < |pairs[1..]|
            ensures pairs[1..][i].0 != x
          {
            assert pairs[1..][i] == pairs[i + 1];
          }
        }
        RenameAll(st', pairs[1..])
  }

  /** What the renamer returns: the history, or the exception that ended the
      batch early (earlier renames stay applied; no history is returned). */
  datatype Outcome = Done(fs: Fs, history: Dict) | Failed(fs: Fs, error: OsError)

  /** Undo swaps every pair before acting on it. */
  function Orient(pairs: seq<Pair>, undo: bool): (r: seq<Pair>)
    ensures !undo ==> r == pairs
    ensures undo ==> r == Swap(pairs)
  {
    if undo then Swap(pairs) else pairs
  }

  /** `EzRenamer.rename(source, undo)`: counter starts at 1, history empty. */
  function Rename(fs: Fs, pairs: seq<Pair>, undo: bool): (r: Outcome)
    ensures |r.fs| == |fs|
    ensures forall x :: x in fs && NotASource(x, Orient(pairs, undo)) ==> x in r.fs && r.fs[x] == fs[x]
    ensures r.Failed? <==> RenameAll(State(fs, 1, []), Orient(pairs, undo)).Abort?
    ensures r.Failed? ==>
      var st0, ps := State(fs, 1, []), Orient(pairs, undo);
      var k := FailedAt(st0, ps);
      && RenameAll(st0, ps[..k]).Continue?
      && r.fs == RenameAll(st0, ps[..k]).state.fs
      && r.error == RenameOne(RenameAll(st0, ps[..k]).state, ps[k]).error
  {
    match RenameAll(State(fs, 1, []), Orient(pairs, undo))
    case Continue(st) => Done(st.fs, st.history)
    case Abort(fs', e) => Failed(fs', e)
  }

  /** A batch whose loop completes is reported as Done with the loop's
      final filesystem and history. */
  lemma RenameDone(fs: Fs, pairs: seq<Pair>, undo: bool, st: State)
    requires RenameAll(State(fs, 1, []), Orient(pairs, undo)) == Continue(st)
    ensures Rename(fs, pairs, undo) == Done(st.fs, st.history)
  {
  }

  /** Originals are pairwise distinct. */
  predicate DistinctSources(pairs: seq<Pair>) {
    forall i, j :: 0 <= i < j < |pairs| ==> pairs[i].0 != pairs[j].0
  }

  /** The moves of a log could be made one by one without replacing anything:
      each source is present and each target is free or is the source. */
  predicate StepValid(fs: Fs, log: seq<Pair>)
    decreases |log|
  {
    |log| == 0 ||
    (&& log[0].0 in fs
     && (log[0].1 == log[0].0 || log[0].1 !in fs)
     && StepValid(MoveEntry(fs, log[0].0, log[0].1), log[1..]))
  }

  /** How many log entries ended somewhere other than their proposed target. */
  function Retargeted(log: seq<Pair>, pairs: seq<Pair>): nat
    decreases |log|
  {
    if |log| == 0 || |pairs| == 0 then 0
    else (if log[0].1 != pairs[0].1 then 1 else 0) + Retargeted(log[1..], pairs[1..])
  }

  /** Originals are distinct and none is already a key of the history. */
  predicate FreshSources(pairs: seq<Pair>, h: Dict) {
    && DistinctSources(pairs)
    && forall i :: 0 <= i < |pairs| ==> pairs[i].0 !in Keys(h)
  }

  lemma FreshTail(pairs: seq<Pair>, h: Dict, t: string)
    requires |pairs| > 0 && FreshSources(pairs, h)
    ensures FreshSources(pairs[1..], h + [(pairs[0].0, t)])
  {
    forall i, j | 0 <= i < j < |pairs[1..]|
      ensures pairs[1..][i].0 != pairs[1..][j].0
    {
      assert pairs[1..][i] == pairs[i + 1] && pairs[1..][j] == pairs[j + 1];
    }
    forall i | 0 <= i < |pairs[1..]|
      ensures pairs[1..][i].0 !in Keys(h + [(pairs[0].0, t)])
    {
      assert pairs[1..][i] == pairs[i + 1];
      assert pairs[i + 1].0 != pairs[0].0;
    }
  }

  /** When the first step succeeds, the batch continues from its state. */
  lemma UnfoldStep(st: State, pairs: seq<Pair>)
    requires |pairs| > 0 && RenameOne(st, pairs[0]).Continue?
    ensures RenameAll(st, pairs) == RenameAll(RenameOne(st, pairs[0]).state, pairs[1..])
  {
  }

  /** A completed batch takes its first step successfully and continues from there. */
  lemma UnfoldOne(st: State, pairs: seq<Pair>)
    requires |pairs| > 0 && RenameAll(st, pairs).Continue?
    ensures RenameOne(st, pairs[0]).Continue?
    ensures RenameAll(st, pairs) == RenameAll(RenameOne(st, pairs[0]).state, pairs[1..])
  {
  }

  /** The position of the pair an aborted batch stopped at: every pair
      before it was renamed, its own step failed, and the batch reports that
      step's error with the filesystem exactly as the earlier renames left
      it. Nothing after it was attempted. */
  function FailedAt(st: State, pairs: seq<Pair>): (k: nat)
    requires RenameAll(st, pairs).Abort?
    ensures k < |pairs|
    ensures RenameAll(st, pairs[..k]).Continue?
    ensures RenameOne(RenameAll(st, pairs[..k]).state, pairs[k]).Abort?
    ensures RenameAll(st, pairs).fs == RenameAll(st, pairs[..k]).state.fs
    ensures RenameAll(st, pairs).error == RenameOne(RenameAll(st, pairs[..k]).state, pairs[k]).error
    decreases |pairs|
  {
    if RenameOne(st, pairs[0]).Abort? then
      assert pairs[..0] == [];
      0
    else
      var st1 := RenameOne(st, pairs[0]).state;
      UnfoldStep(st, pairs);
      var k := FailedAt(st1, pairs[1..]);
      PrefixUnfold(st, pairs, k + 1);
      k + 1
  }

  /** Running a prefix of length n > 0 is the first step followed by the
      rest of that prefix. */
  lemma PrefixUnfold(st: State, pairs: seq<Pair>, n: nat)
    requires 0 < n <= |pairs| && RenameOne(st, pairs[0]).Continue?
    ensures RenameAll(st, pairs[..n]) == RenameAll(RenameOne(st, pairs[0]).state, pairs[1..][..n - 1])
  {
    assert pairs[..n][0] == pairs[0];
    assert pairs[..n][1..] == pairs[1..][..n - 1];
    UnfoldStep(st, pairs[..n]);
  }

  /** A completed batch over fresh originals only appends to the history,
      one item per pair. */
  lemma {:induction false} BatchPrefix(st: State, pairs: seq<Pair>)
    requires FreshSources(pairs, st.history)
    requires RenameAll(st, pairs).Continue?
    ensures var h := RenameAll(st, pairs).state.history;
      st.history <= h && |h| == |st.history| + |pairs|
    decreases |pairs|
  {
    if |pairs| > 0 {
      var p := pairs[0];
      UnfoldOne(st, pairs);
      var st1 := RenameOne(st, p).state;
      var t := FinalTarget(st.fs, st.counter, p);
      assert p.0 !in Keys(st.history);
      assert st1.history == st.history + [(p.0, t)];
      FreshTail(pairs, st.history, t);
      BatchPrefix(st1, pairs[1..]);
      var h' := RenameAll(st1, pairs[1..]).state.history;
      assert st1.history <= h';
      assert st.history <= st1.history;
    }
  }

  /** The items a completed batch appended to the history. */
  ghost function Log(st: State, pairs: seq<Pair>): seq<Pair>
    requires RenameAll(st, pairs).Continue?
  {
    var h := RenameAll(st, pairs).state.history;
    if |st.history| <= |h| then h[|st.history|..] else []
  }

  /** The log of a batch is its first pair's item followed by the log of the rest. */
  lemma LogUnfold(st: State, pairs: seq<Pair>)
    requires FreshSources(pairs, st.history)
    requires |pairs| > 0 && RenameAll(st, pairs).Continue?
    ensures RenameOne(st, pairs[0]).Continue?
    ensures var st1 := RenameOne(st, pairs[0]).state;
      && FreshSources(pairs[1..], st1.history)
      && RenameAll(st1, pairs[1..]).Continue?
      && Log(st, pairs) == [(pairs[0].0, FinalTarget(st.fs, st.counter, pairs[0]))] + Log(st1, pairs[1..])
  {
    var p := pairs[0];
    UnfoldOne(st, pairs);
    var st1 := RenameOne(st, p).state;
    var t := FinalTarget(st.fs, st.counter, p);
    StepAppends(st, p);
    FreshTail(pairs, st.history, t);
    BatchPrefix(st1, pairs[1..]);
    var h := RenameAll(st1, pairs[1..]).state.history;
    AppendedLog(st.history, (p.0, t), h);
  }

  /** A successful step on a fresh original appends its item to the history. */
  lemma StepAppends(st: State, p: Pair)
    requires p.0 !in Keys(st.history)
    requires RenameOne(st, p).Continue?
    ensures RenameOne(st, p).state.history == st.history + [(p.0, FinalTarget(st.fs, st.counter, p))]
  {
  }

  lemma AppendedLog<T>(h0: seq<T>, e: T, h: seq<T>)
    requires h0 + [e] <= h
    ensures h[|h0|..] == [e] + h[|h0| + 1..]
  {
    assert h[|h0|] == e;
  }

  lemma HeadTail<T>(s: seq<T>)
    requires |s| > 0
    ensures [s[0]] + s[1..] == s
  {
  }

  /** Counting retargets over a prefix of length i peels the first item. */
  lemma RetargetedShift(log: seq<Pair>, pairs: seq<Pair>, i: nat)
    requires |log| == |pairs| && 0 < i <= |log|
    ensures Retargeted(log[..i], pairs[..i]) ==
      (if log[0].1 != pairs[0].1 then 1 else 0) + Retargeted(log[1..][..i - 1], pairs[1..][..i - 1])
  {
    assert log[..i][1..] == log[1..][..i - 1];
    assert pairs[..i][1..] == pairs[1..][..i - 1];
  }

  /** A completed batch over distinct originals logs one item per pair, in
      order, keyed by that pair's original; the filesystem is the result of
      making exactly the logged moves, none of which replaced an entry. */
  lemma {:induction false} BatchLog(st: State, pairs: seq<Pair>)
    requires FreshSources(pairs, st.history)
    requires RenameAll(st, pairs).Continue?
    ensures |Log(st, pairs)| == |pairs|
    ensures forall i :: 0 <= i < |pairs| ==> Log(st, pairs)[i].0 == pairs[i].0
    ensures StepValid(st.fs, Log(st, pairs))
    ensures RenameAll(st, pairs).state.fs == MoveAll(st.fs, Log(st, pairs))
    decreases |pairs|
  {
    if |pairs| > 0 {
      LogUnfold(st, pairs);
      var st1 := RenameOne(st, pairs[0]).state;
      BatchLog(st1, pairs[1..]);
      var log := Log(st, pairs);
      assert log[1..] == Log(st1, pairs[1..]);
      forall i | 0 <= i < |pairs|
        ensures log[i].0 == pairs[i].0
      {
        if i > 0 {
          assert log[i] == log[1..][i - 1];
          assert pairs[i] == pairs[1..][i - 1];
        }
      }
    }
  }

  /** Each item of `log` kept its proposed target or took the counter value
      current at its turn, counting from `c`. */
  predicate CountedFrom(log: seq<Pair>, pairs: seq<Pair>, c: nat)
    decreases |log|
  {
    && |log| == |pairs|
    && (|log| > 0 ==>
        && (log[0].1 == pairs[0].1 || log[0].1 == CollisionName(pairs[0].1, c))
        && CountedFrom(log[1..], pairs[1..], c + (if log[0].1 != pairs[0].1 then 1 else 0)))
  }

  /** The same, position by position: item i kept its target or got the
      counter value `c` plus the number of items before it that were
      retargeted. */
  lemma {:induction false} CountedAt(log: seq<Pair>, pairs: seq<Pair>, c: nat, i: nat)
    requires CountedFrom(log, pairs, c) && i < |pairs|
    ensures log[i].1 == pairs[i].1 ||
            log[i].1 == CollisionName(pairs[i].1, c + Retargeted(log[..i], pairs[..i]))
    decreases i
  {
    if i > 0 {
      var bump := if log[0].1 != pairs[0].1 then 1 else 0;
      CountedAt(log[1..], pairs[1..], c + bump, i - 1);
      RetargetedShift(log, pairs, i);
    }
  }

  lemma CountedCons(e: Pair, log: seq<Pair>, p: Pair, pairs: seq<Pair>, c: nat, log2: seq<Pair>, pairs2: seq<Pair>)
    requires log2 == [e] + log && pairs2 == [p] + pairs
    requires e.1 == p.1 || e.1 == CollisionName(p.1, c)
    requires CountedFrom(log, pairs, c + (if e.1 != p.1 then 1 else 0))
    ensures CountedFrom(log2, pairs2, c)
  {
    assert log2[0] == e && log2[1..] == log;
    assert pairs2[0] == p && pairs2[1..] == pairs;
  }

  /** A successful step keeps its proposed target, or takes the current
      counter value and advances the counter by one. */
  lemma StepCounter(st: State, p: Pair)
    requires RenameOne(st, p).Continue?
    ensures var t := FinalTarget(st.fs, st.counter, p);
      && RenameOne(st, p).state.counter == st.counter + (if t != p.1 then 1 else 0)
      && (t == p.1 || t == CollisionName(p.1, st.counter))
  {
  }

  lemma RetargetedCons(e: Pair, log: seq<Pair>, p: Pair, pairs: seq<Pair>)
    ensures Retargeted([e] + log, [p] + pairs) == (if e.1 != p.1 then 1 else 0) + Retargeted(log, pairs)
  {
    assert ([e] + log)[1..] == log && ([p] + pairs)[1..] == pairs;
  }

  /** The counter advances once per retargeted pair. */
  lemma {:induction false} BatchCounter(st: State, pairs: seq<Pair>)
    requires FreshSources(pairs, st.history)
    requires RenameAll(st, pairs).Continue?
    ensures RenameAll(st, pairs).state.counter == st.counter + Retargeted(Log(st, pairs), pairs)
    decreases |pairs|
  {
    if |pairs| > 0 {
      var p := pairs[0];
      LogUnfold(st, pairs);
      UnfoldOne(st, pairs);
      var st1 := RenameOne(st, p).state;
      StepCounter(st, p);
      BatchCounter(st1, pairs[1..]);
      RetargetedCons((p.0, FinalTarget(st.fs, st.counter, p)), Log(st1, pairs[1..]), p, pairs[1..]);
      HeadTail(pairs);
    }
  }

  /** The k-th retargeted pair (counting from the counter's start) got
      ` (k)` appended; every other pair kept its proposed target. */
  lemma {:induction false} BatchCounted(st: State, pairs: seq<Pair>)
    requires FreshSources(pairs, st.history)
    requires RenameAll(st, pairs).Continue?
    ensures CountedFrom(Log(st, pairs), pairs, st.counter)
    decreases |pairs|
  {
    if |pairs| > 0 {
      var p := pairs[0];
      LogUnfold(st, pairs);
      var st1 := RenameOne(st, p).state;
      StepCounter(st, p);
      BatchCounted(st1, pairs[1..]);
      HeadTail(pairs);
      CountedCons((p.0, FinalTarget(st.fs, st.counter, p)), Log(st1, pairs[1..]), p, pairs[1..], st.counter,
                  Log(st, pairs), pairs);
    }
  }
}

=== FILE: filesystem.dfy ===
/** The one piece of the operating system the renamer touches: a set of
    entries, each known by its full path and flagged as directory or file,
    and `os.rename` on it with the failure behaviour the renamer's
    `FileExistsError` handling assumes (a distinct existing target is never
    replaced). */
module FileSystem {
  import opened Wrappers

  /** Full path -> is-directory. */
  type Fs = map<string, bool>

  /** A move: (source path, target path). */
  type Move = (string, string)

  datatype OsError =
    | NotFound(path: string)  // FileNotFoundError: the source is gone
    | Exists(path: string)    // FileExistsError: a distinct target is present

  /** The entry at `s` now lives at `f`; nothing else changes. Moving a
      missing path changes nothing. */
  function MoveEntry(fs: Fs, s: string, f: string): (r: Fs)
    ensures s in fs ==> f in r && r[f] == fs[s]
    ensures s in fs && s != f ==> s !in r
    ensures s !in fs ==> r == fs
    ensures forall k :: k != s && k != f ==> (k in r <==> k in fs)
    ensures forall k :: k != s && k != f && k in fs ==> r[k] == fs[k]
  {
    if s in fs then (fs - {s})[f := fs[s]] else fs
  }

  /** `os.rename(src, dst)`: fails with NotFound when the source is absent,
      succeeds without effect when source and target are the same path, fails
      with Exists when a distinct target is present, and otherwise moves the
      entry. */
  function OsRename(fs: Fs, src: string, dst: string): (r: Result<Fs, OsError>)
    ensures src !in fs <==> r == Err(NotFound(src))
    ensures src in fs && src != dst && dst in fs <==> r == Err(Exists(dst))
    ensures r.Ok? <==> src in fs && (src == dst || dst !in fs)
    ensures r.Ok? ==> r.value == MoveEntry(fs, src, dst)
    ensures r.Ok? && src == dst ==> r.value == fs
  {
    if src !in fs then Err(NotFound(src))
    else if src == dst then Ok(fs)
    else if dst in fs then Err(Exists(dst))
    else Ok(MoveEntry(fs, src, dst))
  }

  /** A successful rename neither loses nor creates entries. */
  lemma RenameKeepsCount(fs: Fs, src: string, dst: string)
    requires OsRename(fs, src, dst).Ok?
    ensures |OsRename(fs, src, dst).value| == |fs|
  {
    if src != dst {
      var r := OsRename(fs, src, dst).value;
      assert r.Keys == fs.Keys - {src} + {dst};
      assert |fs.Keys - {src}| == |fs.Keys| - 1;
    }
  }

  /** `x` is neither the source nor the target of any move in `moves`. */
  predicate Untouched(x: string, moves: seq<Move>) {
    forall i :: 0 <= i < |moves| ==> moves[i].0 != x && moves[i].1 != x
  }

  /** Perform the moves one after the other. */
  function MoveAll(fs: Fs, moves: seq<Move>): Fs
    decreases |moves|
  {
    if |moves| == 0 then fs else MoveAll(MoveEntry(fs, moves[0].0, moves[0].1), moves[1..])
  }

  /** Paths no move mentions keep their membership and their flag. */
  lemma {:induction false} MoveAllFrame(fs: Fs, moves: seq<Move>, x: string)
    requires Untouched(x, moves)
    ensures x in MoveAll(fs, moves) <==> x in fs
    ensures x in fs ==> MoveAll(fs, moves)[x] == fs[x]
    decreases |moves|
  {
    if |moves| > 0 {
      var fs' := MoveEntry(fs, moves[0].0, moves[0].1);
      assert Untouched(x, moves[1..]) by {
        forall i | 0 <= i < |moves[1..]|
          ensures moves[1..][i].0 != x && moves[1..][i].1 != x
        {
          assert moves[1..][i] == moves[i + 1];
        }
      }
      MoveAllFrame(fs', moves[1..], x);
    }
  }

  /** Two moves over four distinct-enough paths commute. */
  lemma MoveEntryCommute(fs: Fs, s1: string, f1: string, s2: string, f2: string)
    requires s1 != s2 && s1 != f2 && f1 != s2 && f1 != f2
    ensures MoveEntry(MoveEntry(fs, s1, f1), s2, f2) == MoveEntry(MoveEntry(fs, s2, f2), s1, f1)
  {
  }

  /** A move whose paths no other move mentions can be done first or last. */
  lemma {:induction false} MoveAllCommute(fs: Fs, moves: seq<Move>, s: string, f: string)
    requires Untouched(s, moves) && Untouched(f, moves)
    ensures MoveEntry(MoveAll(fs, moves), s, f) == MoveAll(MoveEntry(fs, s, f), moves)
    decreases |moves|
  {
    if |moves| > 0 {
      var m := moves[0];
      assert m.0 != s && m.1 != s && m.0 != f && m.1 != f;
      assert Untouched(s, moves[1..]) && Untouched(f, moves[1..]) by {
        forall i | 0 <= i < |moves[1..]|
          ensures moves[1..][i] == moves[i + 1]
        {
        }
      }
      MoveAllCommute(MoveEntry(fs, m.0, m.1), moves[1..], s, f);
      MoveEntryCommute(fs, s, f, m.0, m.1);
    }
  }

  /** Moving an entry to a free path and back restores the filesystem. */
  lemma MoveEntryBack(fs: Fs, s: string, f: string)
    requires s in fs && (f == s || f !in fs)
    ensures MoveEntry(MoveEntry(fs, s, f), f, s) == fs
  {
    var r := MoveEntry(MoveEntry(fs, s, f), f, s);
    assert r.Keys == fs.Keys;
  }
}

=== FILE: filter.dfy ===
/** Entry selection of the `rename` subcommand: the predicates built from
    `--directory`, `--only` and `--ignore`, and `EzRenamer.filter_files`,
    which keeps, in scan order, the entries every predicate accepts. */
module EntryFilter {
  import opened Wrappers
  import opened Paths

  /** A directory entry as `os.scandir` reports it. */
  datatype Entry = Entry(name: string, isDir: bool)

  /** The filter flags: `--directory`, and `--only` / `--ignore`, each absent
      or the (possibly empty) list of extensions given after it. */
  datatype Options = Options(directory: bool, only: Option<seq<string>>, ignore: Option<seq<string>>)

  /** Python truthiness of an `nargs='*'` option: absent and empty are false. */
  predicate Given(o: Option<seq<string>>) {
    o.Some? && |o.value| > 0
  }

  /** The list given to an option, or nothing. */
  function Listed(o: Option<seq<string>>): seq<string> {
    if o.Some? then o.value else []
  }

  /** The lambdas the subcommand can build; `Always` is the stand-in
      `lambda e: True` that `filter_files` uses when given no predicate. */
  datatype Predicate =
    | DirOrExtIn(exts: seq<string>)
    | FileExtNotIn(exts: seq<string>)
    | IsDirectory
    | ExtNotIn(exts: seq<string>)
    | ExtIn(exts: seq<string>)
    | Always

  predicate Accepts(p: Predicate, e: Entry) {
    match p
    case DirOrExtIn(exts) => e.isDir || GetExt(e.name) in exts
    case FileExtNotIn(exts) => !e.isDir && GetExt(e.name) !in exts
    case IsDirectory => e.isDir
    case ExtNotIn(exts) => GetExt(e.name) !in exts
    case ExtIn(exts) => GetExt(e.name) in exts
    case Always => true
  }

  /** `all(p(e) for p in predicates)`. */
  predicate AllAccept(preds: seq<Predicate>, e: Entry) {
    forall i :: 0 <= i < |preds| ==> Accepts(preds[i], e)
  }

  lemma AllAcceptSingle(p: Predicate)
    ensures forall e :: AllAccept([p], e) <==> Accepts(p, e)
  {
    forall e | Accepts(p, e) ensures AllAccept([p], e) {
    }
    forall e | AllAccept([p], e) ensures Accepts(p, e) {
      assert [p][0] == p;
    }
  }

  lemma AllAcceptConcat(a: seq<Predicate>, b: seq<Predicate>)
    ensures forall e :: AllAccept(a + b, e) <==> AllAccept(a, e) && AllAccept(b, e)
  {
    forall e | AllAccept(a + b, e) ensures AllAccept(a, e) && AllAccept(b, e) {
      forall i | 0 <= i < |b| ensures Accepts(b[i], e) {
        assert (a + b)[|a| + i] == b[i];
      }
      forall i | 0 <= i < |a| ensures Accepts(a[i], e) {
        assert (a + b)[i] == a[i];
      }
    }
  }

  /** The predicate list the subcommand builds from its flags. With
      `--directory`, a non-empty `--only` wins over `--ignore`; without it,
      the two combine by conjunction and neither leaves the list empty. */
  function Predicates(o: Options): (r: seq<Predicate>)
    ensures o.directory && Given(o.only) ==>
      forall e :: AllAccept(r, e) <==> e.isDir || GetExt(e.name) in o.only.value
    ensures o.directory && !Given(o.only) && Given(o.ignore) ==>
      forall e :: AllAccept(r, e) <==> !e.isDir && GetExt(e.name) !in o.ignore.value
    ensures o.directory && !Given(o.only) && !Given(o.ignore) ==>
      forall e :: AllAccept(r, e) <==> e.isDir
    ensures !o.directory ==>
      forall e :: AllAccept(r, e) <==>
        (Given(o.ignore) ==> GetExt(e.name) !in o.ignore.value) &&
        (Given(o.only) ==> GetExt(e.name) in o.only.value)
    ensures !o.directory && !Given(o.only) && !Given(o.ignore) <==> r == []
  {
    if o.directory then
      var p := if Given(o.only) then DirOrExtIn(o.only.value)
        else if Given(o.ignore) then FileExtNotIn(o.ignore.value)
        else IsDirectory;
      AllAcceptSingle(p);
      [p]
    else
      var a: seq<Predicate> := if Given(o.ignore) then [ExtNotIn(o.ignore.value)] else [];
      var b: seq<Predicate> := if Given(o.only) then [ExtIn(o.only.value)] else [];
      AllAcceptSingle(ExtNotIn(Listed(o.ignore)));
      AllAcceptSingle(ExtIn(Listed(o.only)));
      AllAcceptConcat(a, b);
      a + b
  }

  /** `predicates or [lambda e: True]`. */
  function Effective(preds: Option<seq<Predicate>>): (r: seq<Predicate>)
    ensures |r| > 0
  {
    if preds.Some? && |preds.value| > 0 then preds.value else [Always]
  }

  /** An entry passes when every effective predicate accepts it. */
  predicate Passes(preds: Option<seq<Predicate>>, e: Entry) {
    AllAccept(Effective(preds), e)
  }

  /** Reference definition: the passing entries of `entries`, in order. */
  function Kept(entries: seq<Entry>, preds: Option<seq<Predicate>>): (r: seq<Entry>)
    ensures |r| <= |entries|
    decreases |entries|
  {
    if |entries| == 0 then []
    else
      var init := entries[..|entries| - 1];
      var last := entries[|entries| - 1];
      Kept(init, preds) + (if Passes(preds, last) then [last] else [])
  }

  /** An entry is kept exactly when it was scanned and passes. */
  lemma {:induction false} KeptMembership(entries: seq<Entry>, preds: Option<seq<Predicate>>)
    ensures forall e :: e in Kept(entries, preds) <==> e in entries && Passes(preds, e)
    decreases |entries|
  {
    if |entries| > 0 {
      var init := entries[..|entries| - 1];
      var last := entries[|entries| - 1];
      assert entries == init + [last];
      KeptMembership(init, preds);
    }
  }

  /** One more scanned entry is kept exactly when it passes. */
  lemma KeptSnoc(s: seq<Entry>, x: Entry, preds: Option<seq<Predicate>>)
    ensures Kept(s + [x], preds) == Kept(s, preds) + (if Passes(preds, x) then [x] else [])
  {
    assert (s + [x])[..|s|] == s;
  }

  function Names(entries: seq<Entry>): (r: seq<string>)
    ensures |r| == |entries|
    ensures forall i :: 0 <= i < |entries| ==> r[i] == entries[i].name
  {
    seq(|entries|, i requires 0 <= i < |entries| => entries[i].name)
  }

  /** A name is listed exactly when some entry carries it. */
  lemma NamesMembership(entries: seq<Entry>)
    ensures forall n :: n in Names(entries) <==> exists e :: e in entries && e.name == n
  {
    var r := Names(entries);
    forall n | n in r
      ensures exists e :: e in entries && e.name == n
    {
      var k :| 0 <= k < |r| && r[k] == n;
      assert entries[k] in entries;
    }
    forall n | exists e :: e in entries && e.name == n
      ensures n in r
    {
      var e :| e in entries && e.name == n;
      var k :| 0 <= k < |entries| && entries[k] == e;
      assert r[k] == n;
    }
  }

  lemma PrefixSnoc<T>(s: seq<T>, i: nat)
    requires i < |s|
    ensures s[..i + 1] == s[..i] + [s[i]]
  {
  }

  lemma NamesSnoc(s: seq<Entry>, x: Entry)
    ensures Names(s + [x]) == Names(s) + [x.name]
  {
  }

  /** A name is collected exactly when some passing scanned entry carries it. */
  lemma NamesOfKept(entries: seq<Entry>, preds: Option<seq<Predicate>>)
    ensures forall n :: n in Names(Kept(entries, preds)) <==> exists e :: e in entries && Passes(preds, e) && e.name == n
  {
    KeptMembership(entries, preds);
    NamesMembership(Kept(entries, preds));
  }

  /** `EzRenamer.filter_files`: walk the scan and collect the name of every
      entry that passes all predicates. */
  method FilterFiles(entries: seq<Entry>, preds: Option<seq<Predicate>>) returns (names: seq<string>)
    ensures names == Names(Kept(entries, preds))
    ensures forall n :: n in names <==> exists e :: e in entries && Passes(preds, e) && e.name == n
  {
    names := [];
    var i := 0;
    while i < |entries|
      invariant 0 <= i <= |entries|
      invariant names == Names(Kept(entries[..i], preds))
    {
      var e := entries[i];
      PrefixSnoc(entries, i);
      KeptSnoc(entries[..i], e, preds);
      if AllAccept(Effective(preds), e) {
        NamesSnoc(Kept(entries[..i], preds), e);
        names := names + [e.name];
      }
      i := i + 1;
    }
    assert entries[..|entries|] == entries;
    NamesOfKept(entries, preds);
  }

  /** Entry names are pairwise distinct. */
  predicate DistinctNames(entries: seq<Entry>) {
    forall i, j :: 0 <= i < j < |entries| ==> entries[i].name != entries[j].name
  }

  /** Filtering a listing whose names are distinct keeps them distinct. */
  lemma {:induction false} KeptDistinct(entries: seq<Entry>, preds: Option<seq<Predicate>>)
    requires DistinctNames(entries)
    ensures DistinctNames(Kept(entries, preds))
    decreases |entries|
  {
    if |entries| > 0 {
      var init := entries[..|entries| - 1];
      var last := entries[|entries| - 1];
      assert DistinctNames(init) by {
        forall i, j | 0 <= i < j < |init| ensures init[i].name != init[j].name {
          assert init[i] == entries[i] && init[j] == entries[j];
        }
      }
      KeptDistinct(init, preds);
      KeptMembership(init, preds);
      var k := Kept(init, preds);
      if Passes(preds, last) {
        forall i | 0 <= i < |k| ensures k[i].name != last.name {
          assert k[i] in init;
          var m :| 0 <= m < |init| && init[m] == k[i];
          assert entries[m] == k[i];
        }
        var r := k + [last];
        forall i, j | 0 <= i < j < |r| ensures r[i].name != r[j].name {
          if j < |k| {
            assert r[i] == k[i] && r[j] == k[j];
          }
        }
      } else {
        assert Kept(entries, preds) == k + [];
        assert k + [] == k;
      }
    }
  }

  /** With no predicates, or an empty list, every entry is kept. */
  lemma {:induction false} KeepAll(entries: seq<Entry>, preds: Option<seq<Predicate>>)
    requires preds.None? || preds.value == []
    ensures Kept(entries, preds) == entries
    decreases |entries|
  {
    if |entries| > 0 {
      var init := entries[..|entries| - 1];
      KeepAll(init, preds);
      assert Effective(preds) == [Always];
      assert entries == init + [entries[|entries| - 1]];
    }
  }

  /** Filtering distributes over concatenation of scans: the relative order
      of kept entries is the scan order. */
  lemma {:induction false} KeptAppend(a: seq<Entry>, b: seq<Entry>, preds: Option<seq<Predicate>>)
    ensures Kept(a + b, preds) == Kept(a, preds) + Kept(b, preds)
    decreases |b|
  {
    if |b| == 0 {
      assert a + b == a;
    } else {
      var b' := b[..|b| - 1];
      var x := b[|b| - 1];
      assert (a + b)[..|a + b| - 1] == a + b';
      assert (a + b)[|a + b| - 1] == x;
      KeptAppend(a, b', preds);
    }
  }

  /** Filtering an already filtered scan again keeps all of it. */
  lemma {:induction false} KeptIdempotent(entries: seq<Entry>, preds: Option<seq<Predicate>>)
    ensures Kept(Kept(entries, preds), preds) == Kept(entries, preds)
    decreases |entries|
  {
    if |entries| > 0 {
      var init := entries[..|entries| - 1];
      var last := entries[|entries| - 1];
      assert entries == init + [last];
      KeptSnoc(init, last, preds);
      KeptIdempotent(init, preds);
      var k := Kept(init, preds);
      if Passes(preds, last) {
        KeptSnoc(k, last, preds);
        assert Kept(entries, preds) == k + [last];
      } else {
        assert Kept(entries, preds) == k + [];
        assert k + [] == k;
      }
    }
  }

  /** The subcommand's flags select exactly the entries its help text
      describes, whatever the scan holds. */
  lemma SelectedByFlags(entries: seq<Entry>, o: Options, e: Entry)
    requires e in entries
    ensures e in Kept(entries, Some(Predicates(o))) <==>
      if o.directory then
        if Given(o.only) then e.isDir || GetExt(e.name) in Listed(o.only)
        else if Given(o.ignore) then !e.isDir && GetExt(e.name) !in Listed(o.ignore)
        else e.isDir
      else
        && (Given(o.ignore) ==> GetExt(e.name) !in Listed(o.ignore))
        && (Given(o.only) ==> GetExt(e.name) in Listed(o.only))
  {
    var ps := Predicates(o);
    KeptMembership(entries, Some(ps));
    if ps == [] {
      assert Effective(Some(ps)) == [Always];
    }
  }
}

=== FILE: history.dfy ===
/** Rename history as the renamer keeps it: a Python dict from one path to
    another, whose `items()` are replayed in insertion order by undo. */
module History {
  import opened Wrappers

  /** A str -> str dict as its list of items, in insertion order. */
  type Dict = seq<(string, string)>

  function Keys(d: Dict): set<string> {
    set i | 0 <= i < |d| :: d[i].0
  }

  /** No key occurs twice (every dict the model builds has this shape). */
  predicate UniqueKeys(d: Dict) {
    forall i, j :: 0 <= i < j < |d| ==> d[i].0 != d[j].0
  }

  /** Position of key `k`, or -1 when absent. */
  function IndexOf(d: Dict, k: string): (i: int)
    ensures -1 <= i < |d|
    ensures i >= 0 ==> d[i].0 == k && forall j :: 0 <= j < i ==> d[j].0 != k
    ensures i < 0 <==> k !in Keys(d)
    decreases |d|
  {
    if |d| == 0 then -1
    else if d[0].0 == k then 0
    else
      var j := IndexOf(d[1..], k);
      assert Keys(d) == {d[0].0} + Keys(d[1..]) by {
        forall x | x in Keys(d) ensures x in {d[0].0} + Keys(d[1..]) {
          var m :| 0 <= m < |d| && d[m].0 == x;
          if m > 0 {
            assert d[1..][m - 1] == d[m];
          }
        }
      }
      if j < 0 then -1 else j + 1
  }

  /** The first position holding `k` is the one `IndexOf` reports. */
  lemma IndexOfAt(d: Dict, k: string, i: int)
    requires 0 <= i < |d| && d[i].0 == k
    requires forall j :: 0 <= j < i ==> d[j].0 != k
    ensures IndexOf(d, k) == i
  {
    assert d[i].0 in Keys(d);
  }

  /** `d[k]`, or None where Python raises KeyError. */
  function Get(d: Dict, k: string): (r: Option<string>)
    ensures r.Some? <==> k in Keys(d)
  {
    var i := IndexOf(d, k);
    if i < 0 then None else Some(d[i].1)
  }

  /** `d[k] = v`: an existing key keeps its position and takes the new value;
      a new key goes at the end. */
  function Put(d: Dict, k: string, v: string): (r: Dict)
    ensures Keys(r) == Keys(d) + {k}
    ensures Get(r, k) == Some(v)
    ensures forall k' :: k' != k ==> Get(r, k') == Get(d, k')
    ensures k !in Keys(d) ==> r == d + [(k, v)]
    ensures k in Keys(d) ==> |r| == |d|
    ensures UniqueKeys(d) ==> UniqueKeys(r)
  {
    var i := IndexOf(d, k);
    if i < 0 then
      var r := d + [(k, v)];
      assert r[|d|].0 == k;
      assert forall j :: 0 <= j < |d| ==> r[j] == d[j];
      assert IndexOf(r, k) == |d|;
      forall k' | k' != k
        ensures Get(r, k') == Get(d, k')
      {
        var a := IndexOf(d, k');
        if a >= 0 {
          assert IndexOf(r, k') == a;
        } else {
          assert IndexOf(r, k') < 0;
        }
      }
      r
    else
      var r := d[i := (k, v)];
      assert Keys(r) == Keys(d) by {
        forall x | x in Keys(d) ensures x in Keys(r) {
          var m :| 0 <= m < |d| && d[m].0 == x;
          assert r[m].0 == x;
        }
      }
      IndexOfAt(r, k, i);
      forall k' | k' != k
        ensures Get(r, k') == Get(d, k')
      {
        var a := IndexOf(d, k');
        if a >= 0 {
          IndexOfAt(r, k', a);
        } else {
          assert IndexOf(r, k') < 0;
        }
      }
      r
  }

  /** Appending an item adds its key. */
  lemma KeysAppend(d: Dict, k: string, v: string)
    ensures Keys(d + [(k, v)]) == Keys(d) + {k}
  {
    var d' := d + [(k, v)];
    forall x | x in Keys(d') ensures x in Keys(d) + {k} {
      var m :| 0 <= m < |d'| && d'[m].0 == x;
      if m < |d| {
        assert d'[m] == d[m];
      }
    }
    forall x | x in Keys(d) ensures x in Keys(d') {
      var m :| 0 <= m < |d| && d[m].0 == x;
      assert d'[m] == d[m];
    }
    assert d'[|d|].0 == k;
  }

  /** Every item turned around: (key, value) becomes (value, key). Undo feeds
      a history through the renamer with each pair swapped like this. */
  function Swap(d: Dict): (r: Dict)
    ensures |r| == |d|
    ensures forall i :: 0 <= i < |d| ==> r[i] == (d[i].1, d[i].0)
  {
    seq(|d|, i requires 0 <= i < |d| => (d[i].1, d[i].0))
  }

  /** Swapping a non-empty dict swaps its first item, then the rest. */
  lemma SwapCons(d: Dict)
    requires |d| > 0
    ensures Swap(d) == [(d[0].1, d[0].0)] + Swap(d[1..])
  {
    assert Swap(d)[1..] == Swap(d[1..]);
  }

  /** Swapping twice gives back the original items. */
  lemma SwapSwap(d: Dict)
    ensures Swap(Swap(d)) == d
  {
  }
}

=== FILE: json_config.dfy ===
/** `JsonConfigHandler` of json_config_handler.py, used by the single-file
    script: appends to an object or array element of the loaded JSON
    document, optionally refused once the element has reached a length. */
module JsonConfig {
  import opened Wrappers

  /** The JSON values the configuration holds. */
  datatype Json =
    | JObject(fields: map<string, Json>)
    | JArray(items: seq<Json>)
    | JString(s: string)

  /** `len(value)`. */
  function Size(v: Json): nat {
    match v
    case JObject(f) => |f|
    case JArray(a) => |a|
    case JString(s) => |s|
  }

  /** What Python raises. */
  datatype JsonError =
    | KeyError(key: string)  // a missing element, or a missing `length` keyword
    | TypeError              // item assignment or `+` on values that do not support it

  /** A restriction callback, known by name; the model records that it ran. */
  type Callback = string

  /** The handler's state: `json_data` and `restriction_callbacks`. */
  datatype Handler = Handler(data: map<string, Json>, callbacks: seq<Callback>)

  /** `is_restricted_by_length(element, length)`: the element already holds
      `length` items or more. */
  function IsRestrictedByLength(h: Handler, element: string, length: int): (r: Result<bool, JsonError>)
    ensures r.Err? <==> element !in h.data
    ensures r.Err? ==> r.error == KeyError(element)
    ensures r.Ok? ==> (r.value <==> Size(h.data[element]) >= length)
  {
    if element !in h.data then Err(KeyError(element))
    else Ok(Size(h.data[element]) >= length)
  }

  /** `on_restriction(callback)`. */
  function OnRestriction(h: Handler, cb: Callback): (r: Handler)
    ensures |r.callbacks| == |h.callbacks| + 1
    ensures r.callbacks[..|h.callbacks|] == h.callbacks && r.callbacks[|h.callbacks|] == cb
    ensures r.data == h.data
  {
    h.(callbacks := h.callbacks + [cb])
  }

  datatype AppendOutcome =
    | Stored(handler: Handler)                  // the element was updated (or left as is)
    | Blocked(handler: Handler, ran: seq<Callback>) // restricted: callbacks called

  /** `json_data[element][key] = val`. */
  function SetKey(h: Handler, element: string, key: string, val: Json): (r: Result<Handler, JsonError>)
    ensures r.Ok? <==> element in h.data && h.data[element].JObject?
    ensures r.Err? ==> r.error == if element !in h.data then KeyError(element) else TypeError
    ensures r.Ok? ==>
      && r.value.callbacks == h.callbacks
      && r.value.data.Keys == h.data.Keys
      && (forall k :: k in h.data && k != element ==> r.value.data[k] == h.data[k])
      && r.value.data[element].JObject?
      && r.value.data[element].fields.Keys == h.data[element].fields.Keys + {key}
      && r.value.data[element].fields[key] == val
      && (forall k :: k in h.data[element].fields && k != key ==>
            r.value.data[element].fields[k] == h.data[element].fields[k])
  {
    if element !in h.data then Err(KeyError(element))
    else match h.data[element]
      case JObject(f) => Ok(h.(data := h.data[element := JObject(f[key := val])]))
      case _ => Err(TypeError)
  }

  /** `append_to_object_element(element, key, val, length_restriction,
      **kwargs)`. With a truthy restriction, `kwargs['length']` is read first
      (a missing keyword raises KeyError before anything else); a restricted
      element calls every callback and leaves the data alone. */
  function AppendToObjectElement(h: Handler, element: string, key: string, val: Json,
                                 restricted: bool, length: Option<int>): (r: Result<AppendOutcome, JsonError>)
    ensures restricted && length.None? ==> r == Err(KeyError("length"))
    ensures r.Ok? && r.value.Blocked? ==>
      restricted && r.value.handler == h && r.value.ran == h.callbacks &&
      element in h.data && length.Some? && Size(h.data[element]) >= length.value
    ensures r.Ok? && r.value.Stored? ==>
      SetKey(h, element, key, val) == Ok(r.value.handler) &&
      (restricted ==> length.Some? && Size(h.data[element]) < length.value)
    ensures !restricted ==> (r.Ok? <==> element in h.data && h.data[element].JObject?)
    ensures !restricted && r.Ok? ==> r.value.Stored?
    ensures restricted && length.Some? ==>
      (r.Ok? <==> element in h.data && (Size(h.data[element]) >= length.value || h.data[element].JObject?))
  {
    if restricted then
      if length.None? then Err(KeyError("length"))
      else
        match IsRestrictedByLength(h, element, length.value)
        case Err(e) => Err(e)
        case Ok(true) => Ok(Blocked(h, h.callbacks))
        case Ok(false) =>
          match SetKey(h, element, key, val)
          case Ok(h') => Ok(Stored(h'))
          case Err(e) => Err(e)
    else
      match SetKey(h, element, key, val)
      case Ok(h') => Ok(Stored(h'))
      case Err(e) => Err(e)
  }

  /** Under restriction, an object element never grows past `length`: the
      largest size reachable by appending is `length` itself. */
  lemma ObjectAppendBounded(h: Handler, element: string, key: string, val: Json, length: int)
    requires element in h.data && Size(h.data[element]) <= length
    ensures var r := AppendToObjectElement(h, element, key, val, true, Some(length));
      r.Ok? ==> Size(r.value.handler.data[element]) <= length
  {
    var r := AppendToObjectElement(h, element, key, val, true, Some(length));
    if r.Ok? && r.value.Stored? {
      var f := h.data[element].fields;
      assert r.value.handler.data[element].fields.Keys == f.Keys + {key};
      assert |f.Keys + {key}| <= |f.Keys| + 1;
    }
  }

  /** `json_data[element] + val`: evaluated for its errors only. Lists
      concatenate with lists and strings with strings; anything else raises. */
  predicate Concatenable(a: Json, b: Json) {
    (a.JArray? && b.JArray?) || (a.JString? && b.JString?)
  }

  /** `append_to_array_element(element, val, length_restriction, **kwargs)`:
      the concatenation is computed and discarded, so on every path the data
      is left exactly as it was. */
  function AppendToArrayElement(h: Handler, element: string, val: Json,
                                restricted: bool, length: Option<int>): (r: Result<AppendOutcome, JsonError>)
    ensures r.Ok? ==> r.value.handler == h
    ensures restricted && length.None? ==> r == Err(KeyError("length"))
    ensures r.Ok? && r.value.Blocked? ==> r.value.ran == h.callbacks
    ensures (r.Ok? && r.value.Blocked?) <==>
      restricted && length.Some? && element in h.data && Size(h.data[element]) >= length.value
    ensures !restricted || (length.Some? && !(element in h.data && Size(h.data[element]) >= length.value)) ==>
      (r.Ok? <==> element in h.data && Concatenable(h.data[element], val))
    ensures r.Err? ==>
      r.error == (if restricted && length.None? then KeyError("length")
                  else if element !in h.data then KeyError(element)
                  else TypeError)
  {
    if restricted && length.None? then Err(KeyError("length"))
    else if restricted && element in h.data && Size(h.data[element]) >= length.value then
      Ok(Blocked(h, h.callbacks))
    else if element !in h.data then Err(KeyError(element))
    else if Concatenable(h.data[element], val) then Ok(Stored(h))
    else Err(TypeError)
  }
}

=== FILE: legacy_cli.dfy ===
/** The `__main__` blocks of the two single-file scripts, EZrename.py and
    nyaanamer.py. Both propose pairs with `renamed_name`, run the same
    rename loop and keep only the last batch (`last_changes`) in their JSON
    file. EZrename.py also manages presets and a default regex through
    independent `if` blocks that all run in one invocation; nyaanamer.py
    parses its configuration flags but acts only on `--undo`, which it runs
    after a rename of the same invocation. */
module LegacyCli {
  import opened Wrappers
  import opened Paths
  import opened FileSystem
  import opened History
  import opened EntryFilter
  import opened Executor
  import opened Undo
  import opened UtilsConfig
  import opened JsonConfig
  import opened LegacyFilter
  import Cli

  /** `PRESETS_LIMIT`. */
  const PresetsLimit := 5

  /** The callback the script registers; it exits the program. */
  const RestrictionCallback := "restriction"

  /** The script's JSON file: `presets`, the default regex (`regex_default`
      in EZrename.py, `default_regex` in nyaanamer.py, which has no presets)
      and `last_changes`, the history of the latest batch only. */
  datatype LegacyStore = LegacyStore(presets: map<string, string>, regexDefault: string, lastChanges: Dict)

  /** How an invocation ends. */
  datatype Status =
    | Finished
    | Exited(reason: ConfigError)    // `sys.exit` with the no-preset or no-regex message
    | LimitExit                      // the restriction callback ended the program
    | RenameFailed(failure: OsError) // an OS error escaped the rename loop
    | Crashed(error: JsonError)      // an exception escaped the JSON handler

  /** The filesystem and the JSON file after an invocation. Each step of the
      scripts dumps what it changed, so the file holds the in-memory state
      reached when the program stopped. */
  datatype Run = Run(fs: Fs, store: LegacyStore, status: Status)

  /** `re.sub(regex, replacewith, name)`, left uninterpreted. */
  type Substitution = (string, string, string) -> string

  /** Both scripts rename when `--path` and `--replacewith` are both truthy. */
  predicate RenameRequested(path: Option<string>, replacewith: Option<string>) {
    Truthy(path) && Truthy(replacewith)
  }

  /** The nested `rename(source, undo)`: the loop, then `last_changes` is
      replaced by the batch's history. An exception leaves the renames done
      so far and the old `last_changes`. */
  function Batch(fs: Fs, store: LegacyStore, pairs: seq<Pair>, undo: bool): (r: Run)
    ensures r.status.Finished? || r.status.RenameFailed?
    ensures r.status.Finished? <==> Rename(fs, pairs, undo).Done?
    ensures r.fs == Rename(fs, pairs, undo).fs
    ensures r.status.Finished? ==> r.store == store.(lastChanges := Rename(fs, pairs, undo).history)
    ensures r.status.RenameFailed? ==> r.store == store && r.status.failure == Rename(fs, pairs, undo).error
    ensures r.status.RenameFailed? ==>
      var st0, ps := State(fs, 1, []), Orient(pairs, undo);
      r.fs == RenameAll(st0, ps[..FailedAt(st0, ps)]).state.fs
  {
    match Rename(fs, pairs, undo)
    case Done(fs', h) => Run(fs', store.(lastChanges := h), Finished)
    case Failed(fs', e) => Run(fs', store, RenameFailed(e))
  }

  /** The parsed flags of EZrename.py. An absent `--only`, `--ignore` or
      `--regex-delete` is the empty list; all three are falsy either way. */
  datatype EzArgs = EzArgs(
    path: Option<string>,
    replacewith: Option<string>,
    regex: Option<string>,
    presetRegex: Option<string>,
    undo: bool,
    only: seq<string>,
    ignore: seq<string>,
    regexDefault: Option<Cli.DefaultArg>,
    regexAdd: Option<(string, string)>,
    regexDelete: seq<string>,
    regexList: bool)

  /** The pairs EZrename.py renames: regex selection as in the packaged tool
      (explicit, preset, default), then `renamed_name` over the listing. */
  function Proposed(store: LegacyStore, listing: seq<Entry>, args: EzArgs, resub: Substitution): (r: Result<seq<Pair>, ConfigError>)
    ensures r.Err? <==> SelectRegex(store.presets, store.regexDefault, args.regex, args.presetRegex).Err?
    ensures r.Ok? ==> |r.value| == |OnlyIgnoreHandler(listing, args.only, args.ignore)|
    ensures r.Ok? ==>
      var selected := OnlyIgnoreHandler(listing, args.only, args.ignore);
      var regex := SelectRegex(store.presets, store.regexDefault, args.regex, args.presetRegex).value;
      var path := if args.path.Some? then args.path.value else "";
      var replacewith := if args.replacewith.Some? then args.replacewith.value else "";
      forall i :: 0 <= i < |r.value| ==>
        r.value[i] == (Join(path, selected[i]), Join(path, resub(regex, replacewith, selected[i])))
  {
    var regex :- SelectRegex(store.presets, store.regexDefault, args.regex, args.presetRegex);
    var path := if args.path.Some? then args.path.value else "";
    var replacewith := if args.replacewith.Some? then args.replacewith.value else "";
    Ok(RenamedName(path, n => resub(regex, replacewith, n), listing, args.only, args.ignore))
  }

  /** Lines 132-151 of EZrename.py: rename, or else (`elif`) undo the
      stored batch. */
  function EzRenamePhase(fs: Fs, store: LegacyStore, listing: seq<Entry>, args: EzArgs, resub: Substitution): (r: Run)
    ensures |r.fs| == |fs|
    ensures r.store.presets == store.presets && r.store.regexDefault == store.regexDefault
    ensures r.status.Exited? <==> RenameRequested(args.path, args.replacewith) && Proposed(store, listing, args, resub).Err?
    ensures r.status.Exited? ==> r.fs == fs && r.store == store
    ensures !RenameRequested(args.path, args.replacewith) && !args.undo ==> r == Run(fs, store, Finished)
    ensures r.status.Finished? && RenameRequested(args.path, args.replacewith) ==>
      Rename(fs, Proposed(store, listing, args, resub).value, false) == Done(r.fs, r.store.lastChanges)
    ensures r.status.Finished? && !RenameRequested(args.path, args.replacewith) && args.undo ==>
      Rename(fs, store.lastChanges, true) == Done(r.fs, r.store.lastChanges)
    ensures r.status.RenameFailed? ==> r.store == store
  {
    if RenameRequested(args.path, args.replacewith) then
      match Proposed(store, listing, args, resub)
      case Err(e) => Run(fs, store, Exited(e))
      case Ok(pairs) => Batch(fs, store, pairs, false)
    else if args.undo then Batch(fs, store, store.lastChanges, true)
    else Run(fs, store, Finished)
  }

  /** The part of the JSON document `append_to_object_element` works on. */
  function Document(presets: map<string, string>): (r: map<string, Json>)
    ensures r.Keys == {"presets"} && r["presets"].JObject?
    ensures r["presets"].fields.Keys == presets.Keys
    ensures forall k :: k in presets ==> r["presets"].fields[k] == JString(presets[k])
  {
    map["presets" := JObject(map k | k in presets :: JString(presets[k]))]
  }

  /** The presets a JSON object holds: its string-valued members. */
  function PresetsOf(fields: map<string, Json>): map<string, string> {
    map k | k in fields && fields[k].JString? :: fields[k].s
  }

  /** Reading the presets back from their document gives them unchanged,
      also after one more preset has been set in it. */
  lemma PresetsOfDocument(presets: map<string, string>, name: string, pattern: string)
    ensures PresetsOf(Document(presets)["presets"].fields) == presets
    ensures PresetsOf(Document(presets)["presets"].fields[name := JString(pattern)]) == presets[name := pattern]
  {
    var f := Document(presets)["presets"].fields;
    assert PresetsOf(f).Keys == presets.Keys;
    assert PresetsOf(f[name := JString(pattern)]).Keys == presets.Keys + {name};
  }

  /** The handler the script builds: its data and the one callback. */
  function ScriptHandler(presets: map<string, string>): Handler {
    OnRestriction(Handler(Document(presets), []), RestrictionCallback)
  }

  /** `j.append_to_object_element('presets', name, regex, True, **kwargs)`
      with `length` as the keyword arguments: Ok(Some(presets')) when the
      preset was set, Ok(None) when the callback ran (the program exits). */
  function AppendPreset(presets: map<string, string>, name: string, pattern: string, length: Option<int>): (r: Result<Option<map<string, string>>, JsonError>)
    ensures length.None? ==> r == Err(KeyError("length"))
    ensures length.Some? ==> r.Ok? && (r.value.Some? <==> |presets| < length.value)
    ensures r.Ok? && r.value.Some? ==> r.value.value == presets[name := pattern]
  {
    var h := ScriptHandler(presets);
    assert Size(h.data["presets"]) == |presets| by {
      assert h.data["presets"].fields.Keys == presets.Keys;
    }
    match AppendToObjectElement(h, "presets", name, JString(pattern), true, length)
    case Ok(Stored(h')) =>
      PresetsOfDocument(presets, name, pattern);
      Ok(Some(PresetsOf(h'.data["presets"].fields)))
    case Ok(Blocked(_, _)) => Ok(None)
    case Err(e) => Err(e)
  }

  /** Line 164 of EZrename.py as written: the limit is passed as the
      positional `length_restriction` flag and no `length` keyword is given,
      so the handler's `kwargs['length']` raises KeyError for every name. */
  function RegexAddAsWritten(presets: map<string, string>, name: string, pattern: string): (r: Result<Option<map<string, string>>, JsonError>)
    ensures r == Err(KeyError("length"))
  {
    AppendPreset(presets, name, pattern, None)
  }

  /** Whatever the presets and the name, `--regex-add` as written never
      adds a preset, while the intended call adds a fresh one whenever the
      presets are below the limit. */
  lemma RegexAddNeverAdds(presets: map<string, string>, name: string, pattern: string)
    requires |presets| < PresetsLimit
    ensures RegexAddAsWritten(presets, name, pattern).Err?
    ensures AppendPreset(presets, name, pattern, Some(PresetsLimit)) == Ok(Some(presets[name := pattern]))
  {
  }

  /** Line 164 as intended: `length=PRESETS_LIMIT`. The preset is set unless
      the presets already number the limit or more, in which case the
      callback runs (None: the program exits). */
  function RegexAdd(presets: map<string, string>, name: string, pattern: string): (r: Option<map<string, string>>)
    ensures r.Some? <==> |presets| < PresetsLimit
    ensures r.Some? ==> r.value == presets[name := pattern]
  {
    AppendPreset(presets, name, pattern, Some(PresetsLimit)).value
  }

  /** The corrected `--regex-add` keeps the presets within the limit. */
  lemma RegexAddKeepsLimit(presets: map<string, string>, name: string, pattern: string)
    requires |presets| <= PresetsLimit
    ensures RegexAdd(presets, name, pattern).Some? ==> |RegexAdd(presets, name, pattern).value| <= PresetsLimit
  {
    var r := RegexAdd(presets, name, pattern);
    if r.Some? {
      assert r.value.Keys == presets.Keys + {name};
      assert |presets.Keys + {name}| <= |presets.Keys| + 1;
    }
  }

  /** `--regex-delete`, shared with the packaged tool's `--preset-delete`;
      an empty list is falsy and changes nothing. */
  function DeletePhase(store: LegacyStore, names: seq<string>): (r: LegacyStore)
    ensures r.presets.Keys == store.presets.Keys - (set n | n in names && n != "default")
    ensures forall k :: k in r.presets ==> r.presets[k] == store.presets[k]
    ensures r.regexDefault == if "default" in names then "" else store.regexDefault
    ensures r.lastChanges == store.lastChanges
  {
    if |names| == 0 then store
    else
      var d := Cli.DeletePresets(store.presets, store.regexDefault, names);
      store.(presets := d.0, regexDefault := d.1)
  }

  /** `-d PATTERN` sets the default; `-d` alone only prints it. */
  function SetDefault(store: LegacyStore, d: Option<Cli.DefaultArg>): LegacyStore {
    if Cli.DefaultGiven(d) && d.value.SetDefault? then store.(regexDefault := d.value.pattern) else store
  }

  /** `--regex-add` is acted on: a name other than `default`. */
  predicate AddRequested(args: EzArgs) {
    args.regexAdd.Some? && args.regexAdd.value.0 != "default"
  }

  /** The configuration after a corrected add that went through (when one
      is asked for) and then the deletes: the added name holds its pattern
      unless it is deleted again, and every other preset keeps its own. */
  function AddThenDelete(s1: LegacyStore, args: EzArgs): (r: LegacyStore)
    requires AddRequested(args) ==> |s1.presets| < PresetsLimit
    ensures r.lastChanges == s1.lastChanges
    ensures r.presets.Keys
         == (s1.presets.Keys + (if AddRequested(args) then {args.regexAdd.value.0} else {}))
            - (set n | n in args.regexDelete && n != "default")
    ensures r.regexDefault == if "default" in args.regexDelete then "" else s1.regexDefault
    ensures AddRequested(args) && args.regexAdd.value.0 !in args.regexDelete ==>
      args.regexAdd.value.0 in r.presets && r.presets[args.regexAdd.value.0] == args.regexAdd.value.1
    ensures forall k :: k in r.presets && !(AddRequested(args) && k == args.regexAdd.value.0) ==>
      k in s1.presets && r.presets[k] == s1.presets[k]
  {
    if AddRequested(args) then
      DeletePhase(s1.(presets := RegexAdd(s1.presets, args.regexAdd.value.0, args.regexAdd.value.1).value), args.regexDelete)
    else DeletePhase(s1, args.regexDelete)
  }

  /** Lines 153-181 of EZrename.py with the corrected add: default, add,
      delete and list are separate `if`s, each applied in that order. */
  function EzConfigPhase(fs: Fs, store: LegacyStore, args: EzArgs): (r: Run)
    ensures r.fs == fs && r.store.lastChanges == store.lastChanges
    ensures r.status.Finished? || r.status.LimitExit?
    ensures r.status.LimitExit? <==> AddRequested(args) && |store.presets| >= PresetsLimit
    ensures r.status.LimitExit? ==> r.store == SetDefault(store, args.regexDefault)
    ensures r.status.Finished? ==>
      && r.store.presets.Keys
         == (store.presets.Keys + (if AddRequested(args) then {args.regexAdd.value.0} else {}))
            - (set n | n in args.regexDelete && n != "default")
      && r.store.regexDefault
         == if "default" in args.regexDelete then "" else SetDefault(store, args.regexDefault).regexDefault
    ensures r.status.Finished? && AddRequested(args) && args.regexAdd.value.0 !in args.regexDelete ==>
      args.regexAdd.value.0 in r.store.presets && r.store.presets[args.regexAdd.value.0] == args.regexAdd.value.1
    ensures r.status.Finished? ==>
      forall k :: k in r.store.presets && !(AddRequested(args) && k == args.regexAdd.value.0) ==>
        k in store.presets && r.store.presets[k] == store.presets[k]
  {
    var s1 := SetDefault(store, args.regexDefault);
    if AddRequested(args) && RegexAdd(s1.presets, args.regexAdd.value.0, args.regexAdd.value.1).None? then
      Run(fs, s1, LimitExit)
    else Run(fs, AddThenDelete(s1, args), Finished)
  }

  /** Lines 153-181 of EZrename.py exactly as written: a non-default
      `--regex-add` raises KeyError (RegexAddAsWritten) once `-d` has been
      applied and dumped, so `--regex-delete` and `--regex-list` never run.
      Without an add it is the phase above. */
  function EzConfigPhaseAsWritten(fs: Fs, store: LegacyStore, args: EzArgs): (r: Run)
    ensures r.fs == fs && r.store.lastChanges == store.lastChanges
    ensures r.status.Crashed? <==> AddRequested(args)
    ensures r.status.Crashed? ==>
      r.status.error == KeyError("length") && r.store == SetDefault(store, args.regexDefault)
    ensures !AddRequested(args) ==> r == EzConfigPhase(fs, store, args)
  {
    var s1 := SetDefault(store, args.regexDefault);
    if AddRequested(args) then
      Run(fs, s1, Crashed(RegexAddAsWritten(s1.presets, args.regexAdd.value.0, args.regexAdd.value.1).error))
    else Run(fs, DeletePhase(s1, args.regexDelete), Finished)
  }

  /** As written, a non-default `--regex-add` stops the configuration phase
      before any delete: the presets are those before the add, whatever
      `--regex-delete` names. The corrected phase, below the limit, adds the
      preset and then applies the deletes. */
  lemma AsWrittenAddStopsDeletes(fs: Fs, store: LegacyStore, args: EzArgs)
    requires AddRequested(args)
    ensures EzConfigPhaseAsWritten(fs, store, args)
         == Run(fs, SetDefault(store, args.regexDefault), Crashed(KeyError("length")))
    ensures |store.presets| < PresetsLimit ==>
      var r := EzConfigPhase(fs, store, args);
      && r.status.Finished?
      && r.store.presets.Keys
         == (store.presets.Keys + {args.regexAdd.value.0}) - (set n | n in args.regexDelete && n != "default")
  {
  }

  /** One invocation of EZrename.py as written: the rename phase, then the
      configuration phase as written. */
  function EzMainAsWritten(fs: Fs, store: LegacyStore, listing: seq<Entry>, args: EzArgs, resub: Substitution): (r: Run)
    ensures !AddRequested(args) ==> r == EzMain(fs, store, listing, args, resub)
    ensures AddRequested(args) && EzRenamePhase(fs, store, listing, args, resub).status.Finished? ==>
      var a := EzRenamePhase(fs, store, listing, args, resub);
      r == Run(a.fs, SetDefault(a.store, args.regexDefault), Crashed(KeyError("length")))
  {
    var a := EzRenamePhase(fs, store, listing, args, resub);
    if a.status.Finished? then EzConfigPhaseAsWritten(a.fs, a.store, args) else a
  }

  /** One invocation of EZrename.py (from the handler's construction on):
      the rename phase, then, unless it ended the program, the
      configuration phase. */
  function EzMain(fs: Fs, store: LegacyStore, listing: seq<Entry>, args: EzArgs, resub: Substitution): (r: Run)
    ensures |r.fs| == |fs|
    ensures r.status.Exited? ==> r.fs == fs && r.store == store
    ensures r.status.RenameFailed? ==> r.store == store
    ensures r.status.Finished? || r.status.LimitExit? ==>
      r.fs == EzRenamePhase(fs, store, listing, args, resub).fs
      && r.store.lastChanges == EzRenamePhase(fs, store, listing, args, resub).store.lastChanges
    ensures var a := EzRenamePhase(fs, store, listing, args, resub);
      && (a.status.Finished? ==> r == EzConfigPhase(a.fs, a.store, args))
      && (!a.status.Finished? ==> r == a)
  {
    var a := EzRenamePhase(fs, store, listing, args, resub);
    if a.status.Finished? then EzConfigPhase(a.fs, a.store, args) else a
  }

  /** With `--path` and `--replacewith` given, `--undo` is ignored. */
  lemma UndoIgnoredWhenRenaming(fs: Fs, store: LegacyStore, listing: seq<Entry>, args: EzArgs, resub: Substitution)
    requires RenameRequested(args.path, args.replacewith)
    ensures EzMain(fs, store, listing, args.(undo := true), resub) == EzMain(fs, store, listing, args.(undo := false), resub)
  {
    var on, off := args.(undo := true), args.(undo := false);
    assert Proposed(store, listing, on, resub) == Proposed(store, listing, off, resub);
    var a := EzRenamePhase(fs, store, listing, on, resub);
    assert a == EzRenamePhase(fs, store, listing, off, resub);
    assert EzConfigPhase(a.fs, a.store, on) == EzConfigPhase(a.fs, a.store, off);
  }

  /** The invocation `EZrename.py -u`. */
  const UndoOnly := EzArgs(None, None, None, None, true, [], [], None, None, [], false)

  /** A rename batch followed by `EZrename.py -u` restores the filesystem,
      when the proposed originals are distinct and no final name of the
      batch was another pair's original; `last_changes` then holds the
      reversed batch. */
  lemma EzRenameThenUndo(fs: Fs, store: LegacyStore, listing: seq<Entry>, args: EzArgs, resub: Substitution)
    requires RenameRequested(args.path, args.replacewith)
    requires args.regexDefault.None? && args.regexAdd.None? && args.regexDelete == []
    requires EzMain(fs, store, listing, args, resub).status.Finished?
    requires DistinctSources(Proposed(store, listing, args, resub).value)
    requires NoChain(EzMain(fs, store, listing, args, resub).store.lastChanges)
    ensures var first := EzMain(fs, store, listing, args, resub);
      EzMain(first.fs, first.store, listing, UndoOnly, resub)
        == Run(fs, first.store.(lastChanges := Swap(first.store.lastChanges)), Finished)
  {
    var first := EzMain(fs, store, listing, args, resub);
    var a := EzRenamePhase(fs, store, listing, args, resub);
    assert a.status.Finished?;
    assert first == EzConfigPhase(a.fs, a.store, args);
    assert first.store == a.store by {
      assert (set n | n in args.regexDelete && n != "default") == {};
    }
    UndoRoundTrip(fs, Proposed(store, listing, args, resub).value);
  }

  /** The parsed flags nyaanamer.py acts on. Its configuration flags are
      parsed but never read. */
  datatype NyaaArgs = NyaaArgs(
    path: Option<string>,
    replacewith: Option<string>,
    regex: Option<string>,
    undo: bool,
    only: seq<string>,
    ignore: seq<string>)

  /** The regex nyaanamer.py uses: explicit, else the default; it has no
      presets. */
  function NyaaRegex(store: LegacyStore, regex: Option<string>): (r: Result<string, ConfigError>)
    ensures r.Err? <==> !Truthy(regex) && store.regexDefault == ""
    ensures r.Err? ==> r.error == NoDefault
    ensures r.Ok? ==> r.value == if Truthy(regex) then regex.value else store.regexDefault
  {
    SelectRegex(map[], store.regexDefault, regex, None)
  }

  /** The batch nyaanamer.py proposes once the regex is selected. */
  function NyaaPairs(store: LegacyStore, listing: seq<Entry>, args: NyaaArgs, resub: Substitution): seq<Pair>
    requires RenameRequested(args.path, args.replacewith) && NyaaRegex(store, args.regex).Ok?
  {
    var regex := NyaaRegex(store, args.regex).value;
    RenamedName(args.path.value, n => resub(regex, args.replacewith.value, n), listing, args.only, args.ignore)
  }

  /** Lines 113-127 of nyaanamer.py: rename, then, in a separate `if`, undo
      whatever `last_changes` holds at that point, which is the batch just
      done when both were asked for. */
  function NyaaMain(fs: Fs, store: LegacyStore, listing: seq<Entry>, args: NyaaArgs, resub: Substitution): (r: Run)
    ensures |r.fs| == |fs|
    ensures r.store.presets == store.presets && r.store.regexDefault == store.regexDefault
    ensures r.status.Exited? <==> RenameRequested(args.path, args.replacewith) && NyaaRegex(store, args.regex).Err?
    ensures r.status.Exited? ==> r.fs == fs && r.store == store
    ensures !RenameRequested(args.path, args.replacewith) && !args.undo ==> r == Run(fs, store, Finished)
    ensures RenameRequested(args.path, args.replacewith) && NyaaRegex(store, args.regex).Ok? ==>
      var R := Rename(fs, NyaaPairs(store, listing, args, resub), false);
      && (R.Failed? ==> r == Run(R.fs, store, RenameFailed(R.error)))
      && (R.Done? && !args.undo ==> r == Run(R.fs, store.(lastChanges := R.history), Finished))
      && (R.Done? && args.undo ==>
            var U := Rename(R.fs, R.history, true);
            && r.fs == U.fs
            && (r.status.Finished? <==> U.Done?)
            && r.store.lastChanges == (if U.Done? then U.history else R.history))
    ensures !RenameRequested(args.path, args.replacewith) && args.undo ==>
      var U := Rename(fs, store.lastChanges, true);
      && r.fs == U.fs
      && (r.status.Finished? <==> U.Done?)
      && r.store.lastChanges == (if U.Done? then U.history else store.lastChanges)
  {
    if RenameRequested(args.path, args.replacewith) then
      match NyaaRegex(store, args.regex)
      case Err(e) => Run(fs, store, Exited(e))
      case Ok(regex) =>
        var pairs := NyaaPairs(store, listing, args, resub);
        var a := Batch(fs, store, pairs, false);
        if a.status.Finished? && args.undo then Batch(a.fs, a.store, a.store.lastChanges, true) else a
    else if args.undo then Batch(fs, store, store.lastChanges, true)
    else Run(fs, store, Finished)
  }

  /** nyaanamer.py with `--path`, `--replacewith` and `--undo` together
      renames and immediately renames back: the filesystem is unchanged
      when the batch's originals are distinct and it has no chain. */
  lemma NyaaRenameAndUndo(fs: Fs, store: LegacyStore, listing: seq<Entry>, args: NyaaArgs, resub: Substitution)
    requires RenameRequested(args.path, args.replacewith) && args.undo
    requires NyaaRegex(store, args.regex).Ok?
    requires var regex := NyaaRegex(store, args.regex).value;
      var pairs := RenamedName(args.path.value, n => resub(regex, args.replacewith.value, n), listing, args.only, args.ignore);
      && Rename(fs, pairs, false).Done?
      && DistinctSources(pairs)
      && NoChain(Rename(fs, pairs, false).history)
    ensures var regex := NyaaRegex(store, args.regex).value;
      var pairs := RenamedName(args.path.value, n => resub(regex, args.replacewith.value, n), listing, args.only, args.ignore);
      NyaaMain(fs, store, listing, args, resub)
        == Run(fs, store.(lastChanges := Swap(Rename(fs, pairs, false).history)), Finished)
  {
    var regex := NyaaRegex(store, args.regex).value;
    var pairs := RenamedName(args.path.value, n => resub(regex, args.replacewith.value, n), listing, args.only, args.ignore);
    UndoRoundTrip(fs, pairs);
  }
}

=== FILE: legacy_filter.dfy ===
/** The older entry selection shared by the single-file scripts
    (`only_ignore_handler` and `renamed_name` in EZrename.py and
    nyaanamer.py): extension arguments are tokenised with `\.?(\w+)`, names
    are matched by suffix, and `directory` is a pseudo-extension that pulls
    directories in (with `only`) or pushes them out (with `ignore`). */
module LegacyFilter {
  import opened Paths
  import opened EntryFilter
  import opened Transform

  /** Python's `\w` restricted to ASCII: letters, digits and underscore. */
  predicate IsWordChar(c: char) {
    ('a' <= c <= 'z') || ('A' <= c <= 'Z') || ('0' <= c <= '9') || c == '_'
  }

  predicate IsWord(w: string) {
    |w| > 0 && forall k :: 0 <= k < |w| ==> IsWordChar(w[k])
  }

  /** Length of the run of word characters that starts `s`. */
  function RunLength(s: string): (n: nat)
    ensures n <= |s|
    ensures forall k :: 0 <= k < n ==> IsWordChar(s[k])
    ensures n < |s| ==> !IsWordChar(s[n])
    decreases |s|
  {
    if |s| == 0 || !IsWordChar(s[0]) then 0 else 1 + RunLength(s[1..])
  }

  /** `re.findall(r"\.?(\w+)", s)`: the maximal runs of word characters, in
      order (the optional dot is consumed but not captured). */
  function Tokens(s: string): (r: seq<string>)
    ensures forall i :: 0 <= i < |r| ==> IsWord(r[i])
    decreases |s|
  {
    if |s| == 0 then []
    else if !IsWordChar(s[0]) then Tokens(s[1..])
    else
      var n := RunLength(s);
      [s[..n]] + Tokens(s[n..])
  }

  /** A run stops at the first non-word character, whatever follows it. */
  lemma {:induction false} RunLengthPrefix(a: string, c: char, b: string)
    requires !IsWordChar(c)
    ensures RunLength(a + [c] + b) == RunLength(a + [c])
    ensures RunLength(a + [c]) <= |a|
    decreases |a|
  {
    if |a| > 0 && IsWordChar(a[0]) {
      assert (a + [c] + b)[1..] == a[1..] + [c] + b;
      assert (a + [c])[1..] == a[1..] + [c];
      RunLengthPrefix(a[1..], c, b);
    }
  }

  lemma {:induction false} RunLengthWord(w: string, rest: string)
    requires IsWord(w) && (|rest| == 0 || !IsWordChar(rest[0]))
    ensures RunLength(w + rest) == |w|
    decreases |w|
  {
    assert (w + rest)[0] == w[0];
    assert (w + rest)[1..] == w[1..] + rest;
    if |w| > 1 {
      RunLengthWord(w[1..], rest);
    } else {
      assert w[1..] + rest == rest;
    }
  }

  /** A non-word character separates tokens: the tokens of `a`, a separator
      and `b` are the tokens of `a` followed by those of `b`. */
  lemma {:induction false} TokensSplit(a: string, c: char, b: string)
    requires !IsWordChar(c)
    ensures Tokens(a + [c] + b) == Tokens(a) + Tokens(b)
    decreases |a|
  {
    var s := a + [c] + b;
    if |a| == 0 {
      assert s[1..] == b;
    } else if !IsWordChar(a[0]) {
      assert s[1..] == a[1..] + [c] + b;
      TokensSplit(a[1..], c, b);
    } else {
      RunLengthPrefix(a, c, b);
      var n := RunLength(s);
      assert n == RunLength(a) by {
        RunLengthPrefix(a, c, []);
        assert a + [c] + [] == a + [c];
        RunLengthPrefixShort(a, c);
      }
      assert s[..n] == a[..n];
      assert s[n..] == a[n..] + [c] + b;
      TokensSplit(a[n..], c, b);
    }
  }

  /** The run at the start of `a` is the same with a separator appended. */
  lemma {:induction false} RunLengthPrefixShort(a: string, c: char)
    requires !IsWordChar(c)
    ensures RunLength(a + [c]) == RunLength(a)
    decreases |a|
  {
    if |a| > 0 && IsWordChar(a[0]) {
      assert (a + [c])[1..] == a[1..] + [c];
      RunLengthPrefixShort(a[1..], c);
    }
  }

  /** A single word is a single token. */
  lemma WordToken(w: string)
    requires IsWord(w)
    ensures Tokens(w) == [w]
  {
    RunLengthWord(w, []);
    assert w + [] == w;
    assert w[|w|..] == [];
  }

  /** `" ".join(args)`. */
  function JoinSpace(args: seq<string>): string
    decreases |args|
  {
    if |args| == 0 then ""
    else if |args| == 1 then args[0]
    else args[0] + " " + JoinSpace(args[1..])
  }

  /** The extension arguments as dotted suffixes:
      `["." + e for e in re.findall(EXTENSION_REGEX, " ".join(args))]`. */
  function ExtTokens(args: seq<string>): (r: seq<string>)
    ensures forall i :: 0 <= i < |r| ==> |r[i]| > 1 && r[i][0] == '.'
  {
    var t := Tokens(JoinSpace(args));
    seq(|t|, i requires 0 <= i < |t| => "." + t[i])
  }

  /** Plain word arguments tokenise to themselves, each with a dot in front. */
  lemma {:induction false} PlainExtTokens(args: seq<string>)
    requires forall i :: 0 <= i < |args| ==> IsWord(args[i])
    ensures Tokens(JoinSpace(args)) == args
    ensures |ExtTokens(args)| == |args| && forall i :: 0 <= i < |args| ==> ExtTokens(args)[i] == "." + args[i]
    decreases |args|
  {
    if |args| == 1 {
      WordToken(args[0]);
    } else if |args| > 1 {
      TokensSplit(args[0], ' ', JoinSpace(args[1..]));
      WordToken(args[0]);
      PlainExtTokens(args[1..]);
      assert args[0] + " " + JoinSpace(args[1..]) == args[0] + [' '] + JoinSpace(args[1..]);
    }
  }

  /** A compound extension splits at its dots: `tar.gz` gives `.tar` and `.gz`. */
  lemma CompoundExtension()
    ensures ExtTokens(["tar.gz"]) == [".tar", ".gz"]
  {
    var t := Tokens(JoinSpace(["tar.gz"]));
    assert t == ["tar", "gz"] by {
      assert JoinSpace(["tar.gz"]) == "tar" + ['.'] + "gz";
      TokensSplit("tar", '.', "gz");
      WordToken("tar");
      WordToken("gz");
    }
    assert "." + t[0] == ".tar" && "." + t[1] == ".gz";
  }

  /** A leading dot is consumed, not captured: `.mkv` gives `.mkv`. */
  lemma DottedExtension()
    ensures ExtTokens([".mkv"]) == [".mkv"]
  {
    var t := Tokens(JoinSpace([".mkv"]));
    assert t == ["mkv"] by {
      assert JoinSpace([".mkv"]) == [] + ['.'] + "mkv";
      TokensSplit([], '.', "mkv");
      WordToken("mkv");
    }
    assert "." + t[0] == ".mkv";
  }

  /** `list.remove(x)`: drop the first occurrence of `x`. */
  function RemoveFirst(xs: seq<string>, x: string): (r: seq<string>)
    ensures x !in xs ==> r == xs
    ensures x in xs ==> |r| == |xs| - 1
    ensures multiset(r) == multiset(xs) - multiset{x}
    decreases |xs|
  {
    if |xs| == 0 then []
    else if xs[0] == x then
      assert xs == [x] + xs[1..];
      xs[1..]
    else
      assert xs == [xs[0]] + xs[1..];
      [xs[0]] + RemoveFirst(xs[1..], x)
  }

  /** `name.endswith(suffix)`. */
  predicate EndsWith(name: string, suffix: string) {
    |suffix| <= |name| && name[|name| - |suffix|..] == suffix
  }

  /** `name.endswith(tuple(suffixes))`; false for an empty tuple. */
  predicate EndsWithAny(name: string, suffixes: seq<string>) {
    exists i :: 0 <= i < |suffixes| && EndsWith(name, suffixes[i])
  }

  /** `[f for f in files if f.endswith(tuple(suffixes))]`. */
  function KeepEnding(files: seq<string>, suffixes: seq<string>): (r: seq<string>)
    ensures |r| <= |files|
    ensures forall f :: f in r <==> f in files && EndsWithAny(f, suffixes)
    decreases |files|
  {
    if |files| == 0 then []
    else (if EndsWithAny(files[0], suffixes) then [files[0]] else []) + KeepEnding(files[1..], suffixes)
  }

  /** `[f for f in files if not f.endswith(tuple(suffixes)) and f not in excluded]`. */
  function DropEnding(files: seq<string>, suffixes: seq<string>, excluded: seq<string>): (r: seq<string>)
    ensures |r| <= |files|
    ensures forall f :: f in r <==> f in files && !EndsWithAny(f, suffixes) && f !in excluded
    decreases |files|
  {
    if |files| == 0 then []
    else
      (if !EndsWithAny(files[0], suffixes) && files[0] !in excluded then [files[0]] else []) +
      DropEnding(files[1..], suffixes, excluded)
  }

  /** Suffix filtering keeps the listing order and every repeated name: it
      distributes over concatenation (a one-name list is settled by
      KeepEndingOne). */
  lemma {:induction false} KeepEndingAppend(a: seq<string>, b: seq<string>, suffixes: seq<string>)
    ensures KeepEnding(a + b, suffixes) == KeepEnding(a, suffixes) + KeepEnding(b, suffixes)
    decreases |a|
  {
    if |a| == 0 {
      assert a + b == b;
    } else {
      assert (a + b)[0] == a[0];
      assert (a + b)[1..] == a[1..] + b;
      KeepEndingAppend(a[1..], b, suffixes);
    }
  }

  /** A one-name list is kept exactly when the name matches a suffix. */
  lemma KeepEndingOne(f: string, suffixes: seq<string>)
    ensures KeepEnding([f], suffixes) == if EndsWithAny(f, suffixes) then [f] else []
  {
    assert [f][1..] == [];
  }

  /** The same for the complementary filter: order and repeats are kept. */
  lemma {:induction false} DropEndingAppend(a: seq<string>, b: seq<string>, suffixes: seq<string>, excluded: seq<string>)
    ensures DropEnding(a + b, suffixes, excluded) == DropEnding(a, suffixes, excluded) + DropEnding(b, suffixes, excluded)
    decreases |a|
  {
    if |a| == 0 {
      assert a + b == b;
    } else {
      var h := if !EndsWithAny(a[0], suffixes) && a[0] !in excluded then [a[0]] else [];
      calc {
        DropEnding(a + b, suffixes, excluded);
        { assert (a + b)[0] == a[0] && (a + b)[1..] == a[1..] + b; }
        h + DropEnding(a[1..] + b, suffixes, excluded);
        { DropEndingAppend(a[1..], b, suffixes, excluded); }
        h + (DropEnding(a[1..], suffixes, excluded) + DropEnding(b, suffixes, excluded));
        (h + DropEnding(a[1..], suffixes, excluded)) + DropEnding(b, suffixes, excluded);
        DropEnding(a, suffixes, excluded) + DropEnding(b, suffixes, excluded);
      }
    }
  }

  /** A one-name list is kept exactly when the name matches no suffix and
      is not excluded. */
  lemma DropEndingOne(f: string, suffixes: seq<string>, excluded: seq<string>)
    ensures DropEnding([f], suffixes, excluded) == if !EndsWithAny(f, suffixes) && f !in excluded then [f] else []
  {
    assert [f][1..] == [];
  }

  /** `[f for f in files if os.path.isdir(os.path.join(path, f))]`. */
  function DirNames(listing: seq<Entry>): (r: seq<string>)
    ensures |r| <= |listing|
    ensures forall f :: f in r <==> exists e :: e in listing && e.isDir && e.name == f
    decreases |listing|
  {
    if |listing| == 0 then []
    else
      var rest := DirNames(listing[1..]);
      assert forall e :: e in listing <==> e == listing[0] || e in listing[1..];
      (if listing[0].isDir then [listing[0].name] else []) + rest
  }

  /** The directories of a listing in two parts are those of each part, in order. */
  lemma {:induction false} DirNamesAppend(a: seq<Entry>, b: seq<Entry>)
    ensures DirNames(a + b) == DirNames(a) + DirNames(b)
    decreases |a|
  {
    if |a| == 0 {
      assert a + b == b;
    } else {
      assert (a + b)[0] == a[0];
      assert (a + b)[1..] == a[1..] + b;
      DirNamesAppend(a[1..], b);
    }
  }

  lemma NamesAppend(a: seq<Entry>, b: seq<Entry>)
    ensures Names(a + b) == Names(a) + Names(b)
  {
  }

  const DirectoryToken := ".directory"

  /** `only_ignore_handler(path, only, ignore)` over the directory listing;
      an absent option (None or the default "") and an empty list are all
      falsy and modelled as the empty list. */
  function OnlyIgnoreHandler(listing: seq<Entry>, only: seq<string>, ignore: seq<string>): (r: seq<string>)
    ensures |only| > 0 && DirectoryToken !in ExtTokens(only) ==>
      |r| <= |listing| &&
      forall f :: f in r <==> f in Names(listing) && EndsWithAny(f, ExtTokens(only))
    ensures |only| > 0 && DirectoryToken in ExtTokens(only) ==>
      |r| <= 2 * |listing| &&
      forall f :: f in r <==> (f in Names(listing) &&
        (EndsWithAny(f, RemoveFirst(ExtTokens(only), DirectoryToken)) || f in DirNames(listing)))
    ensures |only| == 0 && |ignore| > 0 && DirectoryToken !in ExtTokens(ignore) ==>
      |r| <= |listing| &&
      forall f :: f in r <==> f in Names(listing) && !EndsWithAny(f, ExtTokens(ignore))
    ensures |only| == 0 && |ignore| > 0 && DirectoryToken in ExtTokens(ignore) ==>
      |r| <= |listing| &&
      forall f :: f in r <==> (f in Names(listing) &&
        !EndsWithAny(f, RemoveFirst(ExtTokens(ignore), DirectoryToken)) && f !in DirNames(listing))
    ensures |only| == 0 && |ignore| == 0 ==> r == Names(listing)
  {
    var files := Names(listing);
    if |only| > 0 then
      var exts := ExtTokens(only);
      if DirectoryToken in exts then
        var rest := RemoveFirst(exts, DirectoryToken);
        var dirs := DirNames(listing);
        DirNamesListed(listing);
        KeepEnding(files, rest) + dirs
      else KeepEnding(files, exts)
    else if |ignore| > 0 then
      var exts := ExtTokens(ignore);
      if DirectoryToken in exts then
        var rest := RemoveFirst(exts, DirectoryToken);
        var dirs := DirNames(listing);
        DropEnding(files, rest, dirs)
      else DropEnding(files, exts, [])
    else files
  }

  /** Every directory name is a name of the listing. */
  lemma DirNamesListed(listing: seq<Entry>)
    ensures forall f :: f in DirNames(listing) ==> f in Names(listing)
  {
    NamesMembership(listing);
  }

  /** The handler keeps the listing order. For a listing in two parts,
      `only` and a plain `ignore` select part by part; `only` with
      `directory` lists the suffix matches of both parts first and all the
      directories after them; `ignore` with `directory` drops, part by part,
      the names of any directory of the whole listing. */
  lemma HandlerOrder(a: seq<Entry>, b: seq<Entry>, only: seq<string>, ignore: seq<string>)
    ensures |only| > 0 && DirectoryToken !in ExtTokens(only) ==>
      OnlyIgnoreHandler(a + b, only, ignore) == OnlyIgnoreHandler(a, only, ignore) + OnlyIgnoreHandler(b, only, ignore)
    ensures |only| > 0 && DirectoryToken in ExtTokens(only) ==>
      var rest := RemoveFirst(ExtTokens(only), DirectoryToken);
      OnlyIgnoreHandler(a + b, only, ignore)
        == KeepEnding(Names(a), rest) + KeepEnding(Names(b), rest) + DirNames(a) + DirNames(b)
    ensures |only| == 0 && |ignore| > 0 && DirectoryToken !in ExtTokens(ignore) ==>
      OnlyIgnoreHandler(a + b, only, ignore) == OnlyIgnoreHandler(a, only, ignore) + OnlyIgnoreHandler(b, only, ignore)
    ensures |only| == 0 && |ignore| > 0 && DirectoryToken in ExtTokens(ignore) ==>
      var rest := RemoveFirst(ExtTokens(ignore), DirectoryToken);
      OnlyIgnoreHandler(a + b, only, ignore)
        == DropEnding(Names(a), rest, DirNames(a + b)) + DropEnding(Names(b), rest, DirNames(a + b))
    ensures |only| == 0 && |ignore| == 0 ==>
      OnlyIgnoreHandler(a + b, only, ignore) == OnlyIgnoreHandler(a, only, ignore) + OnlyIgnoreHandler(b, only, ignore)
  {
    NamesAppend(a, b);
    if |only| > 0 {
      if DirectoryToken in ExtTokens(only) {
        OnlyDirectoryOrder(a, b, only, ignore);
      } else {
        KeepEndingAppend(Names(a), Names(b), ExtTokens(only));
      }
    } else if |ignore| > 0 {
      var exts := ExtTokens(ignore);
      if DirectoryToken in exts {
        DropEndingAppend(Names(a), Names(b), RemoveFirst(exts, DirectoryToken), DirNames(a + b));
      } else {
        DropEndingAppend(Names(a), Names(b), exts, []);
      }
    }
  }

  lemma OnlyDirectoryOrder(a: seq<Entry>, b: seq<Entry>, only: seq<string>, ignore: seq<string>)
    requires |only| > 0 && DirectoryToken in ExtTokens(only)
    ensures var rest := RemoveFirst(ExtTokens(only), DirectoryToken);
      OnlyIgnoreHandler(a + b, only, ignore)
        == KeepEnding(Names(a), rest) + KeepEnding(Names(b), rest) + DirNames(a) + DirNames(b)
  {
    var rest := RemoveFirst(ExtTokens(only), DirectoryToken);
    NamesAppend(a, b);
    DirNamesAppend(a, b);
    KeepEndingAppend(Names(a), Names(b), rest);
    assert OnlyIgnoreHandler(a + b, only, ignore) == KeepEnding(Names(a + b), rest) + DirNames(a + b);
  }

  /** `only` wins: once it is non-empty, `ignore` is never consulted. */
  lemma OnlyBeatsIgnore(listing: seq<Entry>, only: seq<string>, ignore: seq<string>)
    requires |only| > 0
    ensures OnlyIgnoreHandler(listing, only, ignore) == OnlyIgnoreHandler(listing, only, [])
  {
  }

  /** With `only` holding `directory`, the suffix matches come first and all
      directories follow, so a directory whose name also matches a listed
      extension is proposed twice. */
  lemma DirectoryMatchListedTwice(listing: seq<Entry>, only: seq<string>, e: Entry)
    requires |only| > 0 && DirectoryToken in ExtTokens(only)
    requires e in listing && e.isDir
    requires EndsWithAny(e.name, RemoveFirst(ExtTokens(only), DirectoryToken))
    ensures var r := OnlyIgnoreHandler(listing, only, []);
      exists i, j :: 0 <= i < j < |r| && r[i] == e.name && r[j] == e.name
  {
    var rest := RemoveFirst(ExtTokens(only), DirectoryToken);
    var a := KeepEnding(Names(listing), rest);
    var d := DirNames(listing);
    var r := a + d;
    assert OnlyIgnoreHandler(listing, only, []) == r;
    NamesMembership(listing);
    assert e.name in a;
    assert e.name in d;
    var i :| 0 <= i < |a| && a[i] == e.name;
    var k :| 0 <= k < |d| && d[k] == e.name;
    assert r[i] == e.name && r[|a| + k] == e.name;
    assert i < |a| + k;
  }

  lemma {:induction false} KeepNothing(files: seq<string>, suffixes: seq<string>)
    requires suffixes == []
    ensures KeepEnding(files, suffixes) == []
    decreases |files|
  {
    if |files| > 0 {
      KeepNothing(files[1..], suffixes);
    }
  }

  /** `only` naming nothing but `directory` keeps exactly the directories. */
  lemma OnlyDirectory(listing: seq<Entry>, only: seq<string>)
    requires |only| > 0 && ExtTokens(only) == [DirectoryToken]
    ensures OnlyIgnoreHandler(listing, only, []) == DirNames(listing)
  {
    var rest := RemoveFirst(ExtTokens(only), DirectoryToken);
    assert rest == [];
    var files := Names(listing);
    KeepNothing(files, rest);
    assert [] + DirNames(listing) == DirNames(listing);
  }

  /** `renamed_name(path, replacewith, regex, only=..., ignore=...)`: the
      transformer applied to the handler's selection. Without `only` or
      `ignore`, it proposes one pair for every listed entry, in listing
      order. */
  function RenamedName(dir: string, sub: string -> string, listing: seq<Entry>, only: seq<string>, ignore: seq<string>): (r: seq<(string, string)>)
    ensures |r| == |OnlyIgnoreHandler(listing, only, ignore)|
    ensures forall i :: 0 <= i < |r| ==>
      r[i] == (Join(dir, OnlyIgnoreHandler(listing, only, ignore)[i]),
               Join(dir, sub(OnlyIgnoreHandler(listing, only, ignore)[i])))
    ensures |only| == 0 && |ignore| == 0 ==>
      |r| == |listing| &&
      forall i :: 0 <= i < |listing| ==> r[i] == (Join(dir, listing[i].name), Join(dir, sub(listing[i].name)))
  {
    RenamedNames(dir, sub, OnlyIgnoreHandler(listing, only, ignore))
  }
}

=== FILE: paths.dfy ===
/** String-level path helpers the renamer relies on: POSIX `os.path.join`
    for two arguments, `os.path.splitext` and the extension without its dot
    (`get_ext`), and the decimal rendering of the collision counter that the
    f-string ` ({n})` produces. */
module Paths {

  /** POSIX `os.path.join(dir, name)`: an absolute `name` discards `dir`;
      otherwise a `/` is inserted unless `dir` is empty or already ends in one. */
  function Join(dir: string, name: string): (r: string)
    ensures IsAbsolute(name) ==> r == name
    ensures !IsAbsolute(name) ==> |r| >= |dir| + |name| && r[..|dir|] == dir && r[|r| - |name|..] == name
  {
    if IsAbsolute(name) then name
    else if |dir| == 0 || dir[|dir| - 1] == '/' then dir + name
    else dir + "/" + name
  }

  predicate IsAbsolute(name: string) {
    |name| > 0 && name[0] == '/'
  }

  /** The separator `Join` puts between a directory and a relative name. */
  function Separator(dir: string): string {
    if |dir| == 0 || dir[|dir| - 1] == '/' then "" else "/"
  }

  /** For a fixed directory, joining is injective on relative names: two
      distinct entry names never produce the same path. */
  lemma JoinInjective(dir: string, a: string, b: string)
    requires !IsAbsolute(a) && !IsAbsolute(b)
    requires Join(dir, a) == Join(dir, b)
    ensures a == b
  {
    var pre := dir + Separator(dir);
    assert Join(dir, a) == pre + a;
    assert Join(dir, b) == pre + b;
    assert a == (pre + a)[|pre|..];
    assert b == (pre + b)[|pre|..];
  }

  /** Index of the last occurrence of `c` in `s`, or -1 (Python `str.rfind`). */
  function LastIndexOf(s: string, c: char): (r: int)
    ensures -1 <= r < |s|
    ensures r >= 0 ==> s[r] == c
    ensures forall i :: r < i < |s| ==> s[i] != c
    decreases |s|
  {
    if |s| == 0 then -1
    else if s[|s| - 1] == c then |s| - 1
    else LastIndexOf(s[..|s| - 1], c)
  }

  /** `LastIndexOf` is determined by its contract: any index holding `c` with
      no later `c` is the one it returns. */
  lemma LastIndexOfUnique(s: string, c: char, k: int)
    requires -1 <= k < |s|
    requires k >= 0 ==> s[k] == c
    requires forall i :: k < i < |s| ==> s[i] != c
    ensures LastIndexOf(s, c) == k
  {
  }

  /** True when some character strictly between `lo` and `hi` is not a dot. */
  predicate HasNonDotBetween(p: string, lo: int, hi: int)
    requires -1 <= lo && hi <= |p|
  {
    exists i :: lo < i < hi && p[i] != '.'
  }

  /** Python's `posixpath.splitext`: the extension starts at the last dot of
      the final path component, provided that component has a non-dot
      character before it (leading dots never start an extension); otherwise
      the extension is empty. */
  function SplitExt(p: string): (r: (string, string))
    ensures r.0 + r.1 == p
    ensures r.1 != "" ==> r.1[0] == '.' && '.' !in r.1[1..] && '/' !in r.1[1..]
  {
    var sep := LastIndexOf(p, '/');
    var dot := LastIndexOf(p, '.');
    if dot > sep && HasNonDotBetween(p, sep, dot) then
      (p[..dot], p[dot..])
    else (p, "")
  }

  /** `os.path.splitext(name)[1][1:]`: the extension without its dot. */
  function GetExt(name: string): string {
    var ext := SplitExt(name).1;
    if ext == "" then "" else ext[1..]
  }

  /** The final path component of `p` has a non-dot character. */
  predicate StemHasNonDot(root: string) {
    HasNonDotBetween(root, LastIndexOf(root, '/'), |root|)
  }

  /** A name with no dot at all has no extension. */
  lemma NoDotNoExt(name: string)
    requires '.' !in name
    ensures GetExt(name) == ""
  {
  }

  /** `root.ext` has extension `ext` whenever `ext` holds no dot or slash and
      the last component of `root` is not made of dots only. */
  lemma GetExtOfSplit(root: string, ext: string)
    requires '.' !in ext && '/' !in ext
    requires StemHasNonDot(root)
    ensures GetExt(root + "." + ext) == ext
  {
    var p := root + "." + ext;
    assert p[|root|] == '.';
    forall i | |root| < i < |p|
      ensures p[i] != '.' && p[i] != '/'
    {
      assert p[i] == ext[i - |root| - 1];
      assert ext[i - |root| - 1] in ext;
    }
    LastIndexOfUnique(p, '.', |root|);
    var sep := LastIndexOf(root, '/');
    forall i | sep < i < |p|
      ensures p[i] != '/'
    {
      if i < |root| {
        assert p[i] == root[i];
      }
    }
    if sep >= 0 {
      assert p[sep] == root[sep];
    }
    LastIndexOfUnique(p, '/', sep);
    var w :| sep < w < |root| && root[w] != '.';
    assert p[w] == root[w];
    assert HasNonDotBetween(p, sep, |root|);
    assert SplitExt(p).1 == p[|root|..];
    assert p[|root|..] == "." + ext;
  }

  /** Conversely, a non-empty extension always comes from such a split. */
  lemma GetExtShape(name: string)
    requires GetExt(name) != ""
    ensures exists root :: name == root + "." + GetExt(name) && StemHasNonDot(root)
  {
    var sep := LastIndexOf(name, '/');
    var dot := LastIndexOf(name, '.');
    assert dot > sep && HasNonDotBetween(name, sep, dot);
    var root := name[..dot];
    assert name == root + "." + GetExt(name);
    forall i | sep < i < |root|
      ensures root[i] != '/'
    {
      assert root[i] == name[i];
    }
    if sep >= 0 {
      assert root[sep] == name[sep];
    }
    LastIndexOfUnique(root, '/', sep);
    var w :| sep < w < dot && name[w] != '.';
    assert root[w] == name[w];
  }

  /** A name whose final component is dots up to its last dot, such as
      `.bashrc` or `..x`, has no extension. */
  lemma LeadingDotsNoExt(name: string)
    requires !StemHasNonDot(name[..LastIndexOf(name, '.') + 1])
    ensures GetExt(name) == ""
  {
    var sep := LastIndexOf(name, '/');
    var dot := LastIndexOf(name, '.');
    if dot > sep && HasNonDotBetween(name, sep, dot) {
      var root := name[..dot + 1];
      var w :| sep < w < dot && name[w] != '.';
      forall i | sep < i < |root|
        ensures root[i] != '/'
      {
        assert root[i] == name[i];
      }
      if sep >= 0 {
        assert root[sep] == name[sep];
      }
      LastIndexOfUnique(root, '/', sep);
      assert false;
    }
  }

  /** The decimal digit for `d`. */
  function DigitChar(d: nat): (c: char)
    requires d < 10
    ensures '0' <= c <= '9' && (c as int) - ('0' as int) == d
  {
    (('0' as int) + d) as char
  }

  predicate IsDigit(c: char) {
    '0' <= c <= '9'
  }

  /** Python `str(n)` for a non-negative integer. */
  function NatToString(n: nat): (r: string)
    ensures |r| > 0
    ensures forall i :: 0 <= i < |r| ==> IsDigit(r[i])
  {
    if n < 10 then [DigitChar(n)] else NatToString(n / 10) + [DigitChar(n % 10)]
  }

  function DigitValue(c: char): nat
    requires IsDigit(c)
  {
    (c as int) - ('0' as int)
  }

  /** Python `int(s)` for a string of decimal digits. */
  function DigitsValue(s: string): nat
    requires forall i :: 0 <= i < |s| ==> IsDigit(s[i])
  {
    if |s| == 0 then 0
    else DigitsValue(s[..|s| - 1]) * 10 + DigitValue(s[|s| - 1])
  }

  /** Reading the rendered counter back gives the counter: distinct counter
      values give distinct collision suffixes. */
  lemma {:induction false} NatToStringRoundTrip(n: nat)
    ensures DigitsValue(NatToString(n)) == n
  {
    if n >= 10 {
      NatToStringRoundTrip(n / 10);
      var s := NatToString(n);
      assert s[..|s| - 1] == NatToString(n / 10);
    }
  }

  lemma NatToStringInjective(m: nat, n: nat)
    requires NatToString(m) == NatToString(n)
    ensures m == n
  {
    NatToStringRoundTrip(m);
    NatToStringRoundTrip(n);
  }
}

=== FILE: scenario.dfy ===
/** A worked batch: the directory of tests/test_renamer.py (three
    directories `dir1`..`dir3`, `hello.mkv`, `hello2.mkv`, `hello3.mp3`)
    renamed with digits removed. One counter serves the whole batch, so the
    three collisions get 1, 2 and 3 in order, and the counter goes after the
    extension. */
module Scenario {
  import opened Paths
  import opened FileSystem
  import opened History
  import opened Executor
  import opened Transform

  /** The directory listing of the test, in scan order. */
  const Names: seq<string> := ["dir1", "dir2", "dir3", "hello.mkv", "hello2.mkv", "hello3.mp3"]

  /** Under an empty directory the transformer pairs each relative name with
      its substitution. */
  lemma RelativeProposals(sub: string -> string, names: seq<string>, pairs: seq<Pair>)
    requires forall i :: 0 <= i < |names| ==> !IsAbsolute(names[i])
    requires |pairs| == |names|
    requires forall i :: 0 <= i < |names| ==> pairs[i] == (names[i], sub(names[i]))
    ensures RenamedNames("", sub, names) == pairs
  {
    var r := RenamedNames("", sub, names);
    forall i | 0 <= i < |names|
      ensures r[i] == pairs[i]
    {
      assert "" + names[i] == names[i];
      assert IsAbsolute(sub(names[i])) || "" + sub(names[i]) == sub(names[i]);
    }
  }

  /** `re.sub` stays uninterpreted: any substitution that, like `\d+`
      replaced by nothing, maps the test's names to `dir`, `hello.mkv` and
      `hello.mp`, makes the transformer propose exactly the batch below. */
  lemma ProposedBy(sub: string -> string)
    requires sub("dir1") == "dir" && sub("dir2") == "dir" && sub("dir3") == "dir"
    requires sub("hello.mkv") == "hello.mkv" && sub("hello2.mkv") == "hello.mkv"
    requires sub("hello3.mp3") == "hello.mp"
    ensures RenamedNames("", sub, Names) == Pairs
  {
    assert forall i :: 0 <= i < |Names| ==> Pairs[i] == (Names[i], sub(Names[i])) by {
      assert Pairs[0] == (Names[0], sub(Names[0])) && Pairs[1] == (Names[1], sub(Names[1]));
      assert Pairs[2] == (Names[2], sub(Names[2])) && Pairs[3] == (Names[3], sub(Names[3]));
      assert Pairs[4] == (Names[4], sub(Names[4])) && Pairs[5] == (Names[5], sub(Names[5]));
    }
    RelativeProposals(sub, Names, Pairs);
  }

  /** The pairs `renamed_names` proposes with `\d+` replaced by nothing. */
  const Pairs: seq<Pair> := [
    ("dir1", "dir"), ("dir2", "dir"), ("dir3", "dir"),
    ("hello.mkv", "hello.mkv"), ("hello2.mkv", "hello.mkv"), ("hello3.mp3", "hello.mp")]

  const Fs0: Fs := map["dir1" := true, "dir2" := true, "dir3" := true,
                       "hello.mkv" := false, "hello2.mkv" := false, "hello3.mp3" := false]
  const Fs1: Fs := map["dir" := true, "dir2" := true, "dir3" := true,
                       "hello.mkv" := false, "hello2.mkv" := false, "hello3.mp3" := false]
  const Fs2: Fs := map["dir" := true, "dir (1)" := true, "dir3" := true,
                       "hello.mkv" := false, "hello2.mkv" := false, "hello3.mp3" := false]
  const Fs3: Fs := map["dir" := true, "dir (1)" := true, "dir (2)" := true,
                       "hello.mkv" := false, "hello2.mkv" := false, "hello3.mp3" := false]
  const Fs5: Fs := map["dir" := true, "dir (1)" := true, "dir (2)" := true,
                       "hello.mkv" := false, "hello.mkv (3)" := false, "hello3.mp3" := false]
  const Fs6: Fs := map["dir" := true, "dir (1)" := true, "dir (2)" := true,
                       "hello.mkv" := false, "hello.mkv (3)" := false, "hello.mp" := false]

  const H1: Dict := [("dir1", "dir")]
  const H2: Dict := H1 + [("dir2", "dir (1)")]
  const H3: Dict := H2 + [("dir3", "dir (2)")]
  const H4: Dict := H3 + [("hello.mkv", "hello.mkv")]
  const H5: Dict := H4 + [("hello2.mkv", "hello.mkv (3)")]
  const H6: Dict := H5 + [("hello3.mp3", "hello.mp")]

  lemma Counters()
    ensures CollisionName("dir", 1) == "dir (1)"
    ensures CollisionName("dir", 2) == "dir (2)"
    ensures CollisionName("hello.mkv", 3) == "hello.mkv (3)"
  {
    assert NatToString(1) == "1" && NatToString(2) == "2" && NatToString(3) == "3";
  }

  lemma Step1()
    ensures RenameOne(State(Fs0, 1, []), Pairs[0]) == Continue(State(Fs1, 1, H1))
  {
    assert MoveEntry(Fs0, "dir1", "dir") == Fs1;
  }

  lemma Step2()
    ensures RenameOne(State(Fs1, 1, H1), Pairs[1]) == Continue(State(Fs2, 2, H2))
  {
    Counters();
    assert "dir (1)" !in Fs1;
    assert MoveEntry(Fs1, "dir2", "dir (1)") == Fs2;
    assert "dir2" !in Keys(H1);
  }

  lemma Step3()
    ensures RenameOne(State(Fs2, 2, H2), Pairs[2]) == Continue(State(Fs3, 3, H3))
  {
    Counters();
    assert "dir (2)" !in Fs2;
    assert MoveEntry(Fs2, "dir3", "dir (2)") == Fs3;
    assert "dir3" !in Keys(H2);
  }

  lemma Step4()
    ensures RenameOne(State(Fs3, 3, H3), Pairs[3]) == Continue(State(Fs3, 3, H4))
  {
    assert MoveEntry(Fs3, "hello.mkv", "hello.mkv") == Fs3;
    assert "hello.mkv" !in Keys(H3);
  }

  lemma Step5()
    ensures RenameOne(State(Fs3, 3, H4), Pairs[4]) == Continue(State(Fs5, 4, H5))
  {
    Counters();
    assert "hello.mkv (3)" !in Fs3;
    assert MoveEntry(Fs3, "hello2.mkv", "hello.mkv (3)") == Fs5;
    assert "hello2.mkv" !in Keys(H4);
  }

  lemma Step6()
    ensures RenameOne(State(Fs5, 4, H5), Pairs[5]) == Continue(State(Fs6, 4, H6))
  {
    assert "hello.mp" !in Fs5;
    assert MoveEntry(Fs5, "hello3.mp3", "hello.mp") == Fs6;
    assert "hello3.mp3" !in Keys(H5);
  }

  /** The whole batch: `dir`, `dir (1)`, `dir (2)`, the unchanged
      `hello.mkv`, `hello.mkv (3)` and `hello.mp`, with the history
      recording every original in order. */
  lemma DigitsRemoved()
    ensures Rename(Fs0, Pairs, false) == Done(Fs6, H6)
  {
    Step1(); Step2(); Step3(); Step4(); Step5(); Step6();
    UnfoldStep(State(Fs0, 1, []), Pairs);
    UnfoldStep(State(Fs1, 1, H1), Pairs[1..]);
    UnfoldStep(State(Fs2, 2, H2), Pairs[2..]);
    UnfoldStep(State(Fs3, 3, H3), Pairs[3..]);
    UnfoldStep(State(Fs3, 3, H4), Pairs[4..]);
    UnfoldStep(State(Fs5, 4, H5), Pairs[5..]);
    assert Pairs[1..][1..] == Pairs[2..];
    assert Pairs[2..][1..] == Pairs[3..];
    assert Pairs[3..][1..] == Pairs[4..];
    assert Pairs[4..][1..] == Pairs[5..];
    assert Pairs[5..][1..] == [];
  }

  /** From scan to filesystem: the test's listing, transformed under digit
      removal and renamed, gives `dir`, `dir (1)`, `dir (2)`, `hello.mkv`,
      `hello.mkv (3)` and `hello.mp`. */
  lemma ScanDigitsRemoved(sub: string -> string)
    requires sub("dir1") == "dir" && sub("dir2") == "dir" && sub("dir3") == "dir"
    requires sub("hello.mkv") == "hello.mkv" && sub("hello2.mkv") == "hello.mkv"
    requires sub("hello3.mp3") == "hello.mp"
    ensures Rename(Fs0, RenamedNames("", sub, Names), false) == Done(Fs6, H6)
  {
    ProposedBy(sub);
    DigitsRemoved();
  }
}

=== FILE: transform.dfy ===
/** The name transformer (`EzRenamer.renamed_names`, and `renamed_name` of
    the two single-file scripts): every kept name becomes the pair
    (dir/name, dir/sub(name)), where `sub` stands for
    `re.sub(regex, replacewith, ·)` and is left uninterpreted. */
module Transform {
  import opened Paths

  /** One original/proposed pair per name, in the order the names come. */
  function RenamedNames(dir: string, sub: string -> string, names: seq<string>): (r: seq<(string, string)>)
    ensures |r| == |names|
    ensures forall i :: 0 <= i < |names| ==> r[i] == (Join(dir, names[i]), Join(dir, sub(names[i])))
    decreases |names|
  {
    if |names| == 0 then []
    else [(Join(dir, names[0]), Join(dir, sub(names[0])))] + RenamedNames(dir, sub, names[1..])
  }

  /** The transformer works name by name: transforming two lists one after
      the other is transforming their concatenation. */
  lemma {:induction false} RenamedNamesAppend(dir: string, sub: string -> string, a: seq<string>, b: seq<string>)
    ensures RenamedNames(dir, sub, a + b) == RenamedNames(dir, sub, a) + RenamedNames(dir, sub, b)
    decreases |a|
  {
    if |a| == 0 {
      assert a + b == b;
    } else {
      assert (a + b)[0] == a[0];
      assert (a + b)[1..] == a[1..] + b;
      RenamedNamesAppend(dir, sub, a[1..], b);
    }
  }

  /** A substitution that leaves every name alone proposes, for every pair,
      its own original: each rename is a same-path no-op. */
  lemma IdentityProposesOriginals(dir: string, sub: string -> string, names: seq<string>)
    requires forall n :: n in names ==> sub(n) == n
    ensures forall i :: 0 <= i < |names| ==> RenamedNames(dir, sub, names)[i].0 == RenamedNames(dir, sub, names)[i].1
  {
    var r := RenamedNames(dir, sub, names);
    forall i | 0 <= i < |names|
      ensures r[i].0 == r[i].1
    {
      assert names[i] in names;
    }
  }

  /** Distinct relative entry names of one directory give distinct original
      paths, whatever the substitution does to them. */
  lemma DistinctOriginals(dir: string, sub: string -> string, names: seq<string>)
    requires forall i :: 0 <= i < |names| ==> !IsAbsolute(names[i])
    requires forall i, j :: 0 <= i < j < |names| ==> names[i] != names[j]
    ensures var r := RenamedNames(dir, sub, names);
      forall i, j :: 0 <= i < j < |r| ==> r[i].0 != r[j].0
  {
    var r := RenamedNames(dir, sub, names);
    forall i, j | 0 <= i < j < |r|
      ensures r[i].0 != r[j].0
    {
      if r[i].0 == r[j].0 {
        JoinInjective(dir, names[i], names[j]);
      }
    }
  }
}

=== FILE: undo.dfy ===
/** Undo: the stored history replayed through the renamer with every pair
    swapped. It restores the directory exactly when the forward batch
    completed, its originals were distinct, and no pair's final name was
    another pair's original; without that last condition it can fail to. */
module Undo {
  import opened Wrappers
  import opened Paths
  import opened FileSystem
  import opened History
  import opened Executor

  /** No pair's final name is another pair's original. */
  predicate NoChain(d: seq<Pair>) {
    forall i, j :: 0 <= i < |d| && 0 <= j < |d| && i != j ==> d[i].1 != d[j].0
  }

  /** Final names are pairwise distinct. */
  predicate DistinctFinals(d: seq<Pair>) {
    forall i, j :: 0 <= i < j < |d| ==> d[i].1 != d[j].1
  }

  /** The moves of `d` touch pairwise unrelated paths (a pair may still be a
      same-path no-op). */
  predicate Disjoint(d: seq<Pair>) {
    DistinctSources(d) && DistinctFinals(d) && NoChain(d)
  }

  /** Every move of `d` is valid against the one filesystem `g`. */
  predicate GroundValid(g: Fs, d: seq<Pair>) {
    forall i :: 0 <= i < |d| ==> d[i].0 in g && (d[i].1 == d[i].0 || d[i].1 !in g)
  }

  lemma DisjointTail(d: seq<Pair>)
    requires |d| > 0 && Disjoint(d)
    ensures Disjoint(d[1..])
    ensures Untouched(d[0].0, d[1..]) && Untouched(d[0].1, d[1..])
  {
    forall i | 0 <= i < |d[1..]|
      ensures d[1..][i] == d[i + 1]
    {
    }
  }

  lemma NoChainTail(d: seq<Pair>)
    requires |d| > 0 && NoChain(d)
    ensures NoChain(d[1..])
    ensures NotASource(d[0].1, d[1..])
  {
    forall i | 0 <= i < |d[1..]|
      ensures d[1..][i] == d[i + 1]
    {
    }
  }

  /** An entry that no later move takes as its source stays put, so no later
      move can pick its path as a free target. */
  lemma {:induction false} StaysPresent(fs: Fs, log: seq<Pair>, x: string)
    requires StepValid(fs, log) && x in fs && NotASource(x, log)
    ensures forall i :: 0 <= i < |log| ==> log[i].1 != x
    decreases |log|
  {
    if |log| > 0 {
      assert log[0].0 != x;
      var fs' := MoveEntry(fs, log[0].0, log[0].1);
      assert NotASource(x, log[1..]) by {
        forall i | 0 <= i < |log[1..]|
          ensures log[1..][i] == log[i + 1]
        {
        }
      }
      StaysPresent(fs', log[1..], x);
      forall i | 0 <= i < |log|
        ensures log[i].1 != x
      {
        if i > 0 {
          assert log[i] == log[1..][i - 1];
        }
      }
    }
  }

  /** Without chains, a completed batch never reuses a final name. */
  lemma {:induction false} FinalsDistinct(fs: Fs, log: seq<Pair>)
    requires StepValid(fs, log) && NoChain(log)
    ensures DistinctFinals(log)
    decreases |log|
  {
    if |log| > 0 {
      var fs' := MoveEntry(fs, log[0].0, log[0].1);
      NoChainTail(log);
      FinalsDistinct(fs', log[1..]);
      StaysPresent(fs', log[1..], log[0].1);
      forall i, j | 0 <= i < j < |log|
        ensures log[i].1 != log[j].1
      {
        assert log[j] == log[1..][j - 1];
        if i > 0 {
          assert log[i] == log[1..][i - 1];
        }
      }
    }
  }

  /** For disjoint moves, validity one step at a time is validity against the
      starting filesystem. */
  lemma {:induction false} LiftValid(g: Fs, log: seq<Pair>)
    requires StepValid(g, log) && Disjoint(log)
    ensures GroundValid(g, log)
    decreases |log|
  {
    if |log| > 0 {
      var s, f := log[0].0, log[0].1;
      DisjointTail(log);
      LiftValid(MoveEntry(g, s, f), log[1..]);
      forall i | 0 <= i < |log|
        ensures log[i].0 in g && (log[i].1 == log[i].0 || log[i].1 !in g)
      {
        if i > 0 {
          assert log[i] == log[1..][i - 1];
        }
      }
    }
  }

  /** The first swapped move of a disjoint, ground-valid log, replayed on the
      filesystem the log produced, succeeds without collision and leaves the
      filesystem the rest of the log would have produced on its own. */
  lemma UndoFirstStep(g: Fs, r: seq<Pair>, st: State)
    requires |r| > 0 && Disjoint(r) && GroundValid(g, r)
    requires st.fs == MoveAll(g, r)
    requires r[0].1 !in Keys(st.history)
    ensures RenameOne(st, (r[0].1, r[0].0)) == Continue(State(MoveAll(g, r[1..]), st.counter, st.history + [(r[0].1, r[0].0)]))
  {
    var s, f := r[0].0, r[0].1;
    DisjointTail(r);
    var x := MoveAll(g, r[1..]);
    MoveAllCommute(g, r[1..], s, f);
    assert st.fs == MoveEntry(x, s, f);
    MoveAllFrame(g, r[1..], s);
    MoveAllFrame(g, r[1..], f);
    if f != s {
      MoveEntryBack(x, s, f);
    }
    assert !Collides(st.fs, f, s);
  }

  lemma GroundValidTail(g: Fs, r: seq<Pair>)
    requires |r| > 0 && GroundValid(g, r)
    ensures GroundValid(g, r[1..])
  {
    forall i | 0 <= i < |r[1..]|
      ensures r[1..][i] == r[i + 1]
    {
    }
  }

  lemma AppendAssoc<T>(a: seq<T>, x: T, b: seq<T>)
    ensures (a + [x]) + b == a + ([x] + b)
  {
  }

  /** Replaying disjoint, ground-valid moves swapped, in their original order,
      starting from the filesystem they produced, meets no collision and ends
      on the starting filesystem; the new history is the swapped items. */
  lemma {:induction false} UndoReplay(g: Fs, r: seq<Pair>, st: State)
    requires Disjoint(r) && GroundValid(g, r)
    requires st.fs == MoveAll(g, r)
    requires forall i :: 0 <= i < |r| ==> r[i].1 !in Keys(st.history)
    ensures RenameAll(st, Swap(r)) == Continue(State(g, st.counter, st.history + Swap(r)))
    decreases |r|
  {
    if |r| == 0 {
      assert Swap(r) == [];
    } else {
      var s, f := r[0].0, r[0].1;
      UndoFirstStep(g, r, st);
      var st1 := State(MoveAll(g, r[1..]), st.counter, st.history + [(f, s)]);
      var q := Swap(r);
      SwapCons(r);
      assert q[0] == (f, s) && q[1..] == Swap(r[1..]);
      UnfoldStep(st, q);
      DisjointTail(r);
      GroundValidTail(g, r);
      KeysAppend(st.history, f, s);
      forall i | 0 <= i < |r[1..]|
        ensures r[1..][i].1 !in Keys(st1.history)
      {
        assert r[1..][i] == r[i + 1];
        assert r[i + 1].1 != f;
      }
      UndoReplay(g, r[1..], st1);
      AppendAssoc(st.history, (f, s), Swap(r[1..]));
    }
  }

  /** The history of a completed forward batch is its log: one item per
      pair keyed by the pair's original, made of valid one-by-one moves. */
  lemma ForwardLog(fs: Fs, pairs: seq<Pair>)
    requires DistinctSources(pairs)
    requires Rename(fs, pairs, false).Done?
    ensures var out := Rename(fs, pairs, false);
      && DistinctSources(out.history)
      && StepValid(fs, out.history)
      && out.fs == MoveAll(fs, out.history)
  {
    var st := State(fs, 1, []);
    var out := Rename(fs, pairs, false);
    assert FreshSources(pairs, []);
    BatchPrefix(st, pairs);
    BatchLog(st, pairs);
    var h := out.history;
    assert Log(st, pairs) == h;
    forall i, j | 0 <= i < j < |h|
      ensures h[i].0 != h[j].0
    {
      assert h[i].0 == pairs[i].0 && h[j].0 == pairs[j].0;
    }
  }

  /** Undoing a chain-free log of valid moves with distinct originals, from
      the filesystem it produced, gives back the filesystem it started from. */
  lemma UndoLog(g: Fs, h: seq<Pair>, out: Fs)
    requires StepValid(g, h) && DistinctSources(h) && NoChain(h)
    requires out == MoveAll(g, h)
    ensures Rename(out, h, true) == Done(g, Swap(h))
  {
    var st := State(out, 1, []);
    assert RenameAll(st, Swap(h)) == Continue(State(g, 1, Swap(h))) by {
      FinalsDistinct(g, h);
      LiftValid(g, h);
      assert Keys(st.history) == {};
      UndoReplay(g, h, st);
    }
    RenameDone(out, h, true, State(g, 1, Swap(h)));
  }

  /** Undoing a completed batch restores the filesystem exactly, provided its
      originals were distinct and no pair's final name was another pair's
      original. The undo batch itself meets no collision, and its history is
      the forward history turned around, so it can be undone in turn. */
  lemma UndoRoundTrip(fs: Fs, pairs: seq<Pair>)
    requires DistinctSources(pairs)
    requires Rename(fs, pairs, false).Done?
    requires NoChain(Rename(fs, pairs, false).history)
    ensures var out := Rename(fs, pairs, false);
      Rename(out.fs, out.history, true) == Done(fs, Swap(out.history))
  {
    var out := Rename(fs, pairs, false);
    ForwardLog(fs, pairs);
    UndoLog(fs, out.history, out.fs);
  }

  const ChainPairs: seq<Pair> := [("b", "c"), ("a", "b")]
  const ChainFs0: Fs := map["a" := false, "b" := false]
  const ChainFs1: Fs := map["a" := false, "c" := false]
  const ChainFs2: Fs := map["c" := false, "b" := false]
  const ChainFs3: Fs := map["b" := false, "b (1)" := false]
  const ChainFs4: Fs := map["b (1)" := false, "a" := false]

  lemma ChainStep1()
    ensures RenameOne(State(ChainFs0, 1, []), ChainPairs[0]) == Continue(State(ChainFs1, 1, [("b", "c")]))
  {
    assert MoveEntry(ChainFs0, "b", "c") == ChainFs1;
  }

  lemma ChainStep2()
    ensures RenameOne(State(ChainFs1, 1, [("b", "c")]), ChainPairs[1]) == Continue(State(ChainFs2, 1, ChainPairs))
  {
    assert MoveEntry(ChainFs1, "a", "b") == ChainFs2;
    assert "a" !in Keys([("b", "c")]);
  }

  /** Renaming `b` to `c` and then `a` to `b` completes without collision. */
  lemma ChainedForward()
    ensures Rename(ChainFs0, ChainPairs, false) == Done(ChainFs2, ChainPairs)
  {
    ChainStep1();
    ChainStep2();
    UnfoldStep(State(ChainFs0, 1, []), ChainPairs);
    UnfoldStep(State(ChainFs1, 1, [("b", "c")]), ChainPairs[1..]);
    assert ChainPairs[1..][1..] == [];
  }

  lemma UndoStep1()
    ensures RenameOne(State(ChainFs2, 1, []), ("c", "b")) == Continue(State(ChainFs3, 2, [("c", "b (1)")]))
  {
    assert NatToString(1) == "1";
    assert CollisionName("b", 1) == "b (1)";
    assert "b (1)" !in ChainFs2;
    assert MoveEntry(ChainFs2, "c", "b (1)") == ChainFs3;
  }

  lemma UndoStep2()
    ensures RenameOne(State(ChainFs3, 2, [("c", "b (1)")]), ("b", "a")) == Continue(State(ChainFs4, 2, [("c", "b (1)"), ("b", "a")]))
  {
    assert "a" !in ChainFs3;
    assert MoveEntry(ChainFs3, "b", "a") == ChainFs4;
    assert "b" !in Keys([("c", "b (1)")]);
  }

  /** Undoing that batch moves `c` onto the occupied `b`, so it lands on
      `b (1)`, and then moves `b` (formerly `a`) back to `a`. */
  lemma ChainedUndo()
    ensures Rename(ChainFs2, ChainPairs, true) == Done(ChainFs4, [("c", "b (1)"), ("b", "a")])
  {
    var swapped := Orient(ChainPairs, true);
    assert swapped == [("c", "b"), ("b", "a")];
    UndoStep1();
    UndoStep2();
    UnfoldStep(State(ChainFs2, 1, []), swapped);
    UnfoldStep(State(ChainFs3, 2, [("c", "b (1)")]), swapped[1..]);
    assert swapped[1..][1..] == [];
  }

  /** The no-chain condition is needed: renaming `b` to `c` and then `a` to
      `b` completes, but its undo does not give back `{a, b}`. */
  lemma ChainedBatchNotRestored()
    ensures var out := Rename(ChainFs0, ChainPairs, false);
      && out.Done?
      && !NoChain(out.history)
      && Rename(out.fs, out.history, true).Done?
      && Rename(out.fs, out.history, true).fs != ChainFs0
  {
    ChainedForward();
    ChainedUndo();
    assert ChainPairs[1].1 == ChainPairs[0].0;
    assert "b" !in ChainFs4;
  }
}

=== FILE: utils_config.dfy ===
/** The configuration helper of EZrename/utils/confighandler.py: preset
    update under a limit where 0 means unlimited, regex selection, and the
    per-directory rename history. Its `errorer` (by default `sys.exit`)
    becomes the error side of a `Result`. */
module UtilsConfig {
  import opened Wrappers
  import opened History
  import opened PresetConfig

  /** Why a configuration request was refused. */
  datatype ConfigError =
    | Restricted     // the update would exceed the preset limit
    | NoPreset       // "No preset exists by that name."
    | NoDefault      // "No default regex is setted up. ..."
    | NoHistory(path: string)

  /** The helper's state: `limit`, `presets`, `jsdata['regex_default']` and
      `history` (directory path -> rename history). */
  datatype Config = Config(
    limit: Option<int>,
    presets: map<string, string>,
    regexDefault: string,
    history: map<string, Dict>)

  /** Python truthiness of an optional string argument. */
  predicate Truthy(s: Option<string>) {
    s.Some? && s.value != ""
  }

  /** A limit is in force when it is truthy: None and 0 both mean unlimited. */
  predicate LimitActive(c: Config) {
    c.limit.Some? && c.limit.value != 0
  }

  /** `update_preset(new)`: refused, with presets unchanged, when a truthy
      limit would be exceeded by the current count plus `len(new)`;
      otherwise `new` is merged into the presets. */
  function UpdatePreset(c: Config, added: map<string, string>): (r: Result<Config, ConfigError>)
    ensures r.Err? <==> LimitActive(c) && |c.presets| + |added| > c.limit.value
    ensures r.Err? ==> r.error == Restricted
    ensures c.limit.None? || c.limit == Some(0) ==> r.Ok?
    ensures r.Ok? ==>
      && r.value.presets.Keys == c.presets.Keys + added.Keys
      && (forall k :: k in added ==> r.value.presets[k] == added[k])
      && (forall k :: k in c.presets && k !in added ==> r.value.presets[k] == c.presets[k])
      && r.value.limit == c.limit && r.value.regexDefault == c.regexDefault && r.value.history == c.history
  {
    if LimitActive(c) && |c.presets| + |added| > c.limit.value then Err(Restricted)
    else Ok(c.(presets := Update(c.presets, added)))
  }

  /** A positive limit that holds before an update holds after it. */
  lemma UpdatePresetKeepsBound(c: Config, added: map<string, string>)
    requires c.limit.Some? && c.limit.value > 0 && |c.presets| <= c.limit.value
    ensures UpdatePreset(c, added).Ok? ==> |UpdatePreset(c, added).value.presets| <= c.limit.value
  {
    UpdateSize(c.presets, added);
  }

  /** The regex a rename uses: an explicit (truthy) regex, else the preset of
      that name (a missing name is an error), else a non-empty default, else
      an error. Shared by `get_regex` and the `rename` subcommand. */
  function SelectRegex(presets: map<string, string>, default: string, regex: Option<string>, preset: Option<string>): (r: Result<string, ConfigError>)
    ensures Truthy(regex) ==> r == Ok(regex.value)
    ensures !Truthy(regex) && Truthy(preset) ==>
      if preset.value in presets then r == Ok(presets[preset.value]) else r == Err(NoPreset)
    ensures !Truthy(regex) && !Truthy(preset) ==>
      if default != "" then r == Ok(default) else r == Err(NoDefault)
  {
    if Truthy(regex) then Ok(regex.value)
    else if Truthy(preset) then
      if preset.value in presets then Ok(presets[preset.value]) else Err(NoPreset)
    else if default != "" then Ok(default)
    else Err(NoDefault)
  }

  /** An empty explicit regex is as good as none: selection falls through to
      the preset and the default. */
  lemma EmptyRegexFallsThrough(presets: map<string, string>, default: string, preset: Option<string>)
    ensures SelectRegex(presets, default, Some(""), preset) == SelectRegex(presets, default, None, preset)
  {
  }

  /** A selected regex always comes from one of the three sources, and the
      only errors are a missing preset or a missing default. */
  lemma SelectedFromASource(presets: map<string, string>, default: string, regex: Option<string>, preset: Option<string>)
    ensures var r := SelectRegex(presets, default, regex, preset);
      && (r.Ok? ==> (regex.Some? && r.value == regex.value) || r.value in presets.Values || r.value == default)
      && (r.Err? ==> r.error == NoPreset || r.error == NoDefault)
      && (r.Err? <==> !Truthy(regex) && (if Truthy(preset) then preset.value !in presets else default == ""))
  {
    var r := SelectRegex(presets, default, regex, preset);
    if r.Ok? && !Truthy(regex) && Truthy(preset) {
      assert presets[preset.value] in presets.Values;
    }
  }

  /** `get_regex(regex, preset_regex)`. */
  function GetRegex(c: Config, regex: Option<string>, preset: Option<string>): (r: Result<string, ConfigError>)
    ensures Truthy(regex) ==> r == Ok(regex.value)
    ensures r.Err? ==> !Truthy(regex) && (r.error == NoPreset || r.error == NoDefault)
  {
    SelectRegex(c.presets, c.regexDefault, regex, preset)
  }

  /** `get_history(path)`: the history recorded for that directory, or an
      error when there is none. */
  function GetHistory(c: Config, path: string): (r: Result<Dict, ConfigError>)
    ensures r.Ok? <==> path in c.history
    ensures r.Ok? ==> r.value == c.history[path]
    ensures r.Err? ==> r.error == NoHistory(path)
  {
    if path in c.history then Ok(c.history[path]) else Err(NoHistory(path))
  }
}

=== FILE: wrappers.dfy ===
/** Failure-compatible wrappers shared by every module of the model.
  - Option<T> stands for a Python value that may be None.
  - Result<T, E> stands for a computation that either returns normally or
    raises / reports an error of type E. */
module Wrappers {

  datatype Option<+T> = None | Some(value: T) {

    predicate IsFailure() {
      None?
    }

    function PropagateFailure<U>(): Option<U>
      requires None?
    {
      None
    }

    function Extract(): T
      requires Some?
    {
      value
    }
  }

  datatype Result<+T, +E> = Ok(value: T) | Err(error: E) {

    predicate IsFailure() {
      Err?
    }

    function PropagateFailure<U>(): Result<U, E>
      requires Err?
    {
      Err(error)
    }

    function Extract(): T
      requires Ok?
    {
      value
    }
  }
}
